=== FILE: README.md ===
# Portfolio tracker: ticker streamer and valuation core

A Dafny model of the core of a command-line crypto-portfolio tracker. It has two parts.

**The ticker streamer.** It keeps a websocket open to the CryptoCompare streaming API and does four things:

- It classifies each incoming frame by `MESSAGE`, or by `TYPE` when `MESSAGE` is falsy.
- It turns a type-"5" frame that has a truthy `PRICE` and `LASTUPDATE` into a `ticker:update` event.
- It keeps the set of subscription arguments and encodes each pair key as the channel token `5~CCCAGG~FROM~TO`. Only the first `-` is replaced.
- It runs a heartbeat. Every interval it pings; after three pings with no pong it tears the link down and reconnects. On every `open` it sends each stored subscription again.

**The command-line tool.** It keeps a price table keyed by `FROM-TO`:

- A BTC- or ETH-quoted ticker gets a dollar price only when the BTC-USD or ETH-USD ticker is already in the table: the bridge price times its own, fixed at that moment. Otherwise it is stored without one, and the coin stays unpriced until its pair updates again after the bridge has arrived.
- A coin's dollar price is resolved in this order: a direct USD quote; otherwise the bridged price of its BTC quote; otherwise that of its ETH quote, but only when there is no BTC quote.
- Each portfolio coin is valued or set aside as missing. A coin is outdated when its ticker is more than 3600 s old.
- The tool writes ticker lines in key order. It writes a summary of the coins worth something (BTC makes it even when worth nothing, provided it has a price), sorted by rounded balance with the highest first, and a total balance.
- Numbers are shown rounded by `round`: whole numbers above 100, hundredths above 1, thousandths otherwise.

**How the model is built:**

- Everything is pure functions over immutable datatypes.
- JavaScript's `undefined` is `JsCore.Option`, and truthiness is written out.
- Numbers are `real`.
- A JavaScript `Set` is an insertion-ordered sequence without repeats (`JsSet`).
- The socket is the append-only log of commands sent on it.
- Timers and socket events are stimuli fed to a step function (`Streamer.Step`).
- The current time is a parameter.

Modules: `JsCore`, `JsSet`, `Frames`, `Heartbeat`, `Subscriptions`, `Streamer` (streamer); `PriceTable`, `Display`, `Valuation`, `Summary`, `TickerSubscriptions` (command-line tool); `Scenarios` (worked examples).

## Model

| member | source | states |
|---|---|---|
| JsCore.MathRound | cli.js:23 | the result is the integer nearest `x`, a half going up: `x - 0.5 < n <= x + 0.5` |
| JsCore.IndexOf | crypto-compare-ticker-streamer.js:139 | -1 exactly when the character is absent; otherwise its first position |
| JsCore.ReplaceFirst | crypto-compare-ticker-streamer.js:139 | same length; only the first occurrence is replaced, every other character is kept |
| JsCore.ReplaceFirstUndone | crypto-compare-ticker-streamer.js:139 | replacing the first `a` by a fresh `b` is undone by replacing the first `b` by `a` |
| JsCore.LessIrreflexive | cli.js:74 | the default sort order never puts a string before itself |
| JsCore.LessAsymmetric | cli.js:74 | the default sort order never puts two strings each before the other |
| JsCore.LessTransitive | cli.js:84 | the default sort order is transitive |
| JsCore.LessTotal | cli.js:84 | any two distinct strings are ordered one way or the other |
| JsSet.Add | crypto-compare-ticker-streamer.js:133 | `add` adds exactly the element; a present element changes nothing; the earlier order is kept; no repeats arise |
| JsSet.Delete | crypto-compare-ticker-streamer.js:145 | `delete` removes exactly the element; an absent one changes nothing; a present one is cut out at its position, the others keeping their order |
| JsSet.AddAll | cli.js:192-194 | adding a run adds exactly its elements, keeps the earlier entries as a prefix and creates no repeats |
| JsSet.AddAllConcat | cli.js:188-199 | adding two runs one after the other is adding their concatenation |
| Frames.TickerOf | crypto-compare-ticker-streamer.js:92-103 | the ticker copies each frame field to its own field and has no dollar price |
| Frames.Discriminator | crypto-compare-ticker-streamer.js:85 | computes `MESSAGE \|\| TYPE`; its behaviour is stated by `Frames.MessageOverridesType` and `Frames.FalsyMessageDefersToType` |
| Frames.Categorize | crypto-compare-ticker-streamer.js:85-117 | computes the `switch` branch of a discriminator; `Frames.Dispatch` and `Frames.NonTickerInputsAreSilent` state which branch emits |
| Frames.Dispatch | crypto-compare-ticker-streamer.js:76-118 | an event is emitted iff the input parses, its discriminator is "5" and price and last-update are truthy; the event's ticker copies the frame |
| Frames.MessageOverridesType | crypto-compare-ticker-streamer.js:85 | with a truthy `MESSAGE`, `TYPE` has no influence on the outcome |
| Frames.FalsyMessageDefersToType | crypto-compare-ticker-streamer.js:85 | an absent or empty `MESSAGE` leaves the decision to `TYPE` |
| Frames.NonTickerInputsAreSilent | crypto-compare-ticker-streamer.js:77-90 | unparsable input and the info, error, heartbeat and unknown branches emit nothing |
| Heartbeat.Step | crypto-compare-ticker-streamer.js:33-53 | a tick reconnects iff three pings went unanswered or the ping fails; after an answered window the counters restart and the new ping counts (1, 0); a pong only counts; the ping counter stays at most 3 |
| Heartbeat.ReplayStaysBounded | crypto-compare-ticker-streamer.js:34-52 | over any trace of ticks and pongs the ping counter never exceeds three |
| Heartbeat.SilentLinkReconnectsOnFourthTick | crypto-compare-ticker-streamer.js:34-40 | without pongs, three ticks leave (3, 0) and the fourth forces exactly one reconnect with fresh counters |
| Heartbeat.AnsweredLinkNeverReconnects | crypto-compare-ticker-streamer.js:71-74 | a link that answers every ping is never declared dead |
| Subscriptions.Token | crypto-compare-ticker-streamer.js:139 | the token is the prefix `5~CCCAGG~` and then the key with its first '-' turned into '~' |
| Subscriptions.TokenRoundTrip | crypto-compare-ticker-streamer.js:139 | a key without '~' is recovered from its token |
| Subscriptions.Tokens | crypto-compare-ticker-streamer.js:134-139 | a single key becomes a one-token list; an array becomes one token per key, in order |
| Subscriptions.Subscribe | crypto-compare-ticker-streamer.js:131-141 | the entry joins the registry, a stored one leaves it unchanged, and exactly one `SubAdd` with its tokens is sent |
| Subscriptions.Unsubscribe | crypto-compare-ticker-streamer.js:143-153 | the entry leaves the registry, and exactly one `SubRemove` with its tokens is sent |
| Subscriptions.SubAdds | crypto-compare-ticker-streamer.js:60-62 | one `SubAdd` per entry, in order |
| Subscriptions.Resubscribe | crypto-compare-ticker-streamer.js:60-62 | re-subscribing stored entries leaves the registry as it was and sends one `SubAdd` per entry |
| Subscriptions.OnOpen | crypto-compare-ticker-streamer.js:58-63 | on `open` the registry is unchanged and one `SubAdd` per stored entry is appended to the log |
| Streamer.Step | crypto-compare-ticker-streamer.js:33-153 | frames leave the client unchanged and emit what the dispatcher emits; a reconnect happens iff a tick finds the link dead or the ping fails, and it keeps the registry and resets the counters; heartbeat signals never touch the registry; `open` replays the registry, and `subscribe` and `unsubscribe` apply to it, as `OnOpen`, `Subscribe` and `Unsubscribe` do; calls never touch the counters; a transport `error` is only logged and changes nothing |
| Streamer.RunKeepsPingsBounded | crypto-compare-ticker-streamer.js:27-53 | over any stimulus sequence the ping counter stays at most three |
| Streamer.RunTracksEntries | crypto-compare-ticker-streamer.js:131-153 | after any interleaving, the registry holds exactly the entries set semantics predicts, without repeats |
| Streamer.StartedClientTracksEntries | crypto-compare-ticker-streamer.js:11-153 | from a new client with an empty set, any run holds exactly the entries subscribed and not since unsubscribed, without repeats, and the ping counter stays at most three |
| Streamer.ReconnectReplaysRegistry | crypto-compare-ticker-streamer.js:55-63 | after a forced reconnect and the new `open`, the registry is intact, the counters are fresh and exactly the stored entries are re-sent |
| Streamer.ReplaySubscribesExactlyTheRegistry | crypto-compare-ticker-streamer.js:58-62 | the replay only subscribes, and its channel tokens are exactly those of the stored entries |
| Streamer.SubAddsSendWanted | crypto-compare-ticker-streamer.js:60-62 | the tokens of the per-entry `SubAdd`s are exactly the tokens of the entries |
| PriceTable.QuotedPairIsNotABridge | cli.js:344-349 | a BTC- or ETH-quoted pair never overwrites the BTC-USD or ETH-USD bridge entry |
| PriceTable.OnTickerUpdate | cli.js:343-351 | the pair key is added and nothing else changes; the stored ticker is the event's; a BTC/ETH-quoted one gets the bridge price times its own only when that bridge ticker is already stored, and is otherwise stored without a dollar price; others stay as received |
| PriceTable.UpdateKeepsValid | cli.js:343-351 | an event the dispatcher can emit keeps every entry under its own key, with a non-zero price and timestamp, and with a non-zero dollar price only on BTC/ETH pairs |
| PriceTable.Ingest | cli.js:343-351 | feeds each input through the dispatcher into the `ticker:update` listener; `PriceTable.IngestKeepsValid` and `PriceTable.SilentInputsLeaveTable` state its properties |
| PriceTable.IngestKeepsValid | cli.js:343-351 | feeding any input sequence through the dispatcher into the table keeps it valid |
| PriceTable.SilentInputsLeaveTable | crypto-compare-ticker-streamer.js:104-107 | inputs that emit nothing leave the table as it was |
| Display.NearestMultipleUnique | cli.js:21-30 | at most one multiple of a rounding step lies within the half-step window around a price |
| Display.Round | cli.js:21-30 | above 100 the nearest whole number, in (1, 100] the nearest hundredth, otherwise the nearest thousandth, a half going up |
| Display.FormatTicker | cli.js:36-53 | a USD quote shows `$` and its price; with `useUSD`, `$` and the dollar price (NaN when absent); a BTC quote shows µBTC and its price times 10^6; others keep their symbol; outdated shows "!" |
| Display.UsdQuoteIgnoresUseUSD | cli.js:38-43 | a USD-quoted ticker gives the same line whether or not the dollar price is asked for |
| Valuation.Quantity | cli.js:134-141 | computes the sum of the truthy wallet totals; `Valuation.QuantityOfConcat` and `Valuation.FalsyWalletsAddNothing` state its properties |
| Valuation.QuantityOfConcat | cli.js:135-141 | a coin's quantity is additive over its wallets |
| Valuation.FalsyWalletsAddNothing | cli.js:136-138 | wallets with absent or zero totals contribute nothing |
| Valuation.Fallback | cli.js:150 | computes `tickers[coin-BTC] \|\| tickers[coin-ETH]`; `Valuation.Resolve` and `Valuation.BtcQuoteShadowsEthQuote` state how it is used |
| Valuation.Resolve | cli.js:143-159 | a USD quote wins; else the BTC quote (if any) decides through its dollar price; else the ETH quote does; no quote gives no price |
| Valuation.BtcQuoteShadowsEthQuote | cli.js:150-151 | a BTC quote without a dollar price leaves the coin unpriced whatever its ETH quote says |
| Valuation.ResolvedPriceIsNonZero | cli.js:144-154 | in a table fed by the dispatcher every resolved dollar price is non-zero |
| Valuation.Value | cli.js:143-168 | a coin is valued iff its price resolves; then its total is quantity times price, and it is outdated iff its ticker is older than 3600 s |
| Valuation.PortfolioStats | cli.js:125-177 | computes `getPortfolioStats`; `Valuation.ValuedCoinsArePriced`, `Valuation.MissingCoinsAreUnpriced` and `Valuation.EveryCoinAccountedOnce` state that it values exactly the priced coins, lists exactly the unpriced ones and accounts for each coin once |
| Valuation.ValuedCoinsArePriced | cli.js:130-169 | the valued coins are exactly the portfolio coins whose price resolves, each valued by `Value` |
| Valuation.MissingCoinsAreUnpriced | cli.js:155-158 | the missing list names exactly the coins whose price does not resolve |
| Valuation.EveryCoinAccountedOnce | cli.js:130-169 | valued and missing coins together number exactly the portfolio's coins |
| Summary.InsertKey | cli.js:74 | inserting a key into increasing keys gives increasing keys with exactly one more element |
| Summary.SortedKeys | cli.js:74 | `Object.keys(m).sort()` lists exactly the keys, in strictly increasing order |
| Summary.IncreasingUnique | cli.js:74 | two strictly increasing sequences of the same keys are equal, so the sorted key order is unique |
| Summary.ViewsFor | cli.js:74-82 | computes the ticker lines for a key sequence; `Summary.TickerLines` and `Summary.IncreasingUnique` fix the sequence it is applied to |
| Summary.TickerLines | cli.js:74-82 | the ticker lines follow the sorted table keys, one line per ticker plus a dollar line for a bridged one |
| Summary.RowOf | cli.js:90-96 | builds a summary row from a valued coin; `Summary.Summarize` states that every row is the `RowOf` of its coin |
| Summary.Shown | cli.js:86-88 | decides which coins make the summary; `Summary.Summarize` states that the rows are exactly the shown coins |
| Summary.InsertPos | cli.js:99 | the new row goes behind every row of at least its balance and before the first of lower balance |
| Summary.InsertKeepsOrder | cli.js:99 | inserting at that position keeps the rows ordered by balance, equal balances in key order |
| Summary.InsertByBalance | cli.js:99 | one step of the stable sort keeps the order and adds exactly the one row |
| Summary.SortByBalance | cli.js:99 | the sort of key-ordered rows orders them by balance (highest first, ties in key order) and is a permutation |
| Summary.SumTotalsIgnoresWorthless | cli.js:86-89 | coins worth nothing do not change the total balance |
| Summary.CollectRows | cli.js:84-97 | the loop yields one faithful row per shown coin, in key order, and sums their dollar totals |
| Summary.Summarize | cli.js:84-99 | the summary holds exactly the shown coins, each with its rounded figures, ordered by balance; the total balance is the sum over all valued coins |
| TickerSubscriptions.PairsFor | cli.js:190-197 | a mapped coin asks for one pair per mapped quote, in order; an unmapped coin asks for its BTC pair |
| TickerSubscriptions.PortfolioPairs | cli.js:189-198 | a portfolio asks for exactly the pairs its coins ask for |
| TickerSubscriptions.Collect | cli.js:187-200 | computes the set built by `portfolios.forEach`; `TickerSubscriptions.CollectAddsWanted` and `TickerSubscriptions.LaterPortfoliosOnlyAppend` state its properties |
| TickerSubscriptions.CollectAddsWanted | cli.js:187-199 | collecting adds exactly the wanted pairs, without repeats, after what was already there |
| TickerSubscriptions.GetTickerSubscriptions | cli.js:186-203 | the subscription list holds every pair some coin of some portfolio asks for, and only those, each once |
| TickerSubscriptions.LaterPortfoliosOnlyAppend | cli.js:188 | collecting over `ps + qs` is collecting over `qs` after `ps` |
| TickerSubscriptions.SubscriptionsGrowByAppending | cli.js:188-199 | the subscriptions of a list of portfolios are a prefix of those of any extension of it |
| TickerSubscriptions.UnmappedCoinUsesBtcPair | cli.js:196-197 | a coin without a mapping is subscribed through its BTC pair |
| Scenarios.EndToEndBtcUsd | crypto-compare-ticker-streamer.js:91-107 | a BTC-USD frame at 50000 ends up in the table under "BTC-USD" with that price and timestamp |
| Scenarios.BridgedThroughBtc | cli.js:345-347 | with BTC-USD at 50000, a COIN-BTC quote of 0.002 gets a dollar price of 100 |
| Scenarios.EthHoldingValued | cli.js:144-147 | 10 ETH at 3000 dollars are valued at 30000, rounded to 30000 |
| Scenarios.CoinWithoutQuoteIsMissing | cli.js:155-158 | a coin with no quote is missing and not valued |
| Scenarios.StalenessAroundTheLimit | cli.js:53 | 7200 s old is outdated; 100 s old is not |

## Notable behaviour of the code

- The replay on `open` sends one `SubAdd` per stored entry, each as its own command (crypto-compare-ticker-streamer.js:60-62).
- `HEARTBEAT` frames are ignored. Only transport-level pongs count as replies (crypto-compare-ticker-streamer.js:71-74, 113-114).
- After a window of three pings that got a pong, the counters are reset and a ping is sent and counted at once, so the counters read (1, 0) (crypto-compare-ticker-streamer.js:41-52).
- `subscribe` sends at once whatever the connection state; nothing is queued (crypto-compare-ticker-streamer.js:131-141).
- BTC makes the summary even when worth nothing, but only if BTC has a resolved price at all (cli.js:84-88).
- The staleness limit (3600 s) and the outdated marker ("!") are fixed constants (cli.js:15-16).

## Left out

- Socket I/O, `JSON.parse`, timers and promises: frames arrive already decoded or as "unparsable". Timer firings, pongs and calls are stimuli, and the current time is a parameter.
- A frame that parses to `null`: `JSON.parse` accepts it, then reading `data.MESSAGE` outside the `try` throws (crypto-compare-ticker-streamer.js:85), the exception escapes the listener and the `uncaughtException` handler ends the process (cli.js:337). This crash path is not represented. A frame that parses to a number, string, boolean or array reads no `MESSAGE` or `TYPE` and emits nothing (crypto-compare-ticker-streamer.js:115-116); it is the `Parsed` frame whose fields are all `None`.
- Malformed portfolio data: a coin without a `wallets` array, or a `null` wallet, makes `getPortfolioStats` throw (cli.js:134-136); the rejection of the async callback (cli.js:180-182) reaches the `unhandledRejection` handler, which ends the process (cli.js:338, 314-326). A string `total` is concatenated rather than added (cli.js:140). A holding here is a sequence of wallets whose totals are absent or numbers, so none of these cases is represented.
- Floating point: numbers are reals, so there is no NaN, infinity or rounding error. An absent dollar price shown in a ticker line is `None` (JavaScript's NaN).
- Number-to-string conversion, the `{from|to|price|outdated}` template substitution and `columnify` layout: a ticker line is the `Display.View` of its fields.
- File writes of `saveStats`, the portfolio reload, the argument parser, signal handlers and `main`: these are I/O and wiring.
- `disconnect`, `pendingSubs` and `_connected`: they are not read by the modelled behaviour.
- The sorted list of missing coins: it is only logged.
- `Set` stores subscription arguments by reference, so two equal arrays are two entries. The model uses value equality.
- JavaScript object key order (integer-like keys first) for portfolio coins: a portfolio is the sequence of its coins in enumeration order.
- String order: it compares UTF-16 code units, and the model compares Dafny characters.
- `coinMappings` is read from a file. Here it is a parameter mapping each coin to its list of quote symbols.
- Summary.SumTotals: the total balance is accumulated in key order. The contract states it as an order-free sum over the set of coins, which reals make equal.
- Streamer.Step: after a failed `ws.ping()` the old interval still increments its counter, but that interval is cleared by the reconnect, so the model simply starts the new attempt from fresh counters.

=== FILE: display.dfy ===
/**
 Numeric presentation of the command-line tool: the three rounding tiers of
 `round`, and the field selection of the ticker formatter (which symbol and
 which price a ticker line shows, and whether it carries the outdated marker).
 */
module Display {
  import opened JsCore
  import opened Frames

  /** Seconds after which a ticker counts as outdated. */
  const MaxTickerAge: real := 3600.0

  /** Appended to the line of an outdated ticker. */
  const OutdatedSymbol := "!"

  /** `r` is a multiple of `1/scale` and the one nearest `p`, a half going up. */
  predicate NearestMultiple(r: real, p: real, scale: real)
    requires scale > 0.0
  {
    && (r * scale).Floor as real == r * scale
    && p - 0.5 / scale < r <= p + 0.5 / scale
  }

  /** At most one multiple of `1/scale` lies in the half-open window around `p`. */
  lemma NearestMultipleUnique(a: real, b: real, p: real, scale: real)
    requires scale > 0.0 && NearestMultiple(a, p, scale) && NearestMultiple(b, p, scale)
    ensures a == b
  {
    var m, n := (a * scale).Floor, (b * scale).Floor;
    assert p * scale - 0.5 < m as real <= p * scale + 0.5 by {
      assert (p - 0.5 / scale) * scale < a * scale <= (p + 0.5 / scale) * scale;
    }
    assert p * scale - 0.5 < n as real <= p * scale + 0.5 by {
      assert (p - 0.5 / scale) * scale < b * scale <= (p + 0.5 / scale) * scale;
    }
    assert m == n;
    assert a * scale == b * scale;
  }

  /**
   `round`: whole numbers above 100, hundredths above 1, thousandths otherwise,
   each time the nearest such value.
   */
  function Round(p: real): (r: real)
    ensures p > 100.0 ==> NearestMultiple(r, p, 1.0)
    ensures 1.0 < p <= 100.0 ==> NearestMultiple(r, p, 100.0)
    ensures p <= 1.0 ==> NearestMultiple(r, p, 1000.0)
  {
    if p > 100.0 then
      MathRound(p) as real
    else if p > 1.0 then
      var n := MathRound(p * 100.0);
      assert (n as real / 100.0) * 100.0 == n as real;
      n as real / 100.0
    else
      var n := MathRound(p * 1000.0);
      assert (n as real / 1000.0) * 1000.0 == n as real;
      n as real / 1000.0
  }

  /** The fields a ticker line is built from; a price of `None` is JavaScript's NaN. */
  datatype View = View(from: string, to: string, price: Option<real>, outdated: string)

  /**
   The ticker formatter, bound to a ticker, the current time and whether the
   dollar price is wanted.
   */
  function FormatTicker(t: Ticker, now: real, useUSD: bool): (v: View)
    ensures v.from == Show(t.from)
    ensures t.to == Some("USD") ==> v.to == "$" && v.price == Some(Round(t.price))
    ensures t.to != Some("USD") && useUSD ==>
              v.to == "$" && v.price == (if t.priceUSD.Some? then Some(Round(t.priceUSD.value)) else None)
    ensures t.to != Some("USD") && !useUSD && t.to == Some("BTC") ==>
              v.to == "µBTC" && v.price == Some(Round(t.price * 1000000.0))
    ensures t.to != Some("USD") && !useUSD && t.to != Some("BTC") ==>
              v.to == Show(t.to) && v.price == Some(Round(t.price))
    ensures v.outdated == (if now - t.timestamp > MaxTickerAge then OutdatedSymbol else "")
  {
    var (to, price) :=
      if t.to == Some("USD") then ("$", Some(Round(t.price)))
      else if useUSD then ("$", if t.priceUSD.Some? then Some(Round(t.priceUSD.value)) else None)
      else if t.to == Some("BTC") then ("µBTC", Some(Round(t.price * 1000000.0)))
      else (Show(t.to), Some(Round(t.price)));
    View(Show(t.from), to, price, if now - t.timestamp > MaxTickerAge then OutdatedSymbol else "")
  }

  /** A dollar-quoted ticker shows its own price even when the dollar price is asked for. */
  lemma UsdQuoteIgnoresUseUSD(t: Ticker, now: real)
    requires t.to == Some("USD")
    ensures FormatTicker(t, now, true) == FormatTicker(t, now, false)
  {
  }
}

=== FILE: frames.dfy ===
/**
 The message dispatcher of the ticker streamer: a decoded feed frame is
 classified by its `MESSAGE` field, or by `TYPE` when `MESSAGE` is falsy, and
 a ticker frame (type "5") with a truthy price and last-update time becomes a
 `ticker:update` event. Everything else is logged and dropped, which the model
 renders as "no event".
 */
module Frames {
  import opened JsCore

  /** A decoded frame; every field may be absent. Comments give the wire names. */
  datatype Frame = Frame(
    message: Option<string>,           // MESSAGE
    kind: Option<string>,              // TYPE
    flags: Option<real>,               // FLAGS
    fromSymbol: Option<string>,        // FROMSYMBOL
    toSymbol: Option<string>,          // TOSYMBOL
    price: Option<real>,               // PRICE
    volume24h: Option<real>,           // VOLUME24HOUR
    volume24hTo: Option<real>,         // VOLUME24HOURTO
    topTierVolume24h: Option<real>,    // TOPTIERVOLUME24HOUR
    topTierVolume24hTo: Option<real>,  // TOPTIERVOLUME24HOURTO
    lastUpdate: Option<real>,          // LASTUPDATE, unix seconds
    market: Option<string>)            // MARKET

  /** What arrives on the socket: text that `JSON.parse` rejects, or a decoded frame. */
  datatype Input = Unparsable | Parsed(frame: Frame)

  /**
   The ticker record handed to listeners. Price and timestamp are plain numbers
   because a record is only ever emitted when both are truthy; `priceUSD` is the
   fiat price a listener may attach later.
   */
  datatype Ticker = Ticker(
    flags: Option<real>,
    from: Option<string>,
    to: Option<string>,
    price: real,
    vol24hFrom: Option<real>,
    vol24hTo: Option<real>,
    vol24hTopFrom: Option<real>,
    vol24hTopTo: Option<real>,
    timestamp: real,
    lastMarket: Option<string>,
    priceUSD: Option<real>)

  /** `emit("ticker:update", from, to, price, ticker)`. */
  datatype Event = TickerUpdate(from: Option<string>, to: Option<string>, price: real, ticker: Ticker)

  /** The branches of the dispatcher's `switch`. */
  datatype Category = Info | Update | ProviderError | Heartbeat | Unrecognized

  /** `MESSAGE || TYPE`. */
  function Discriminator(f: Frame): Option<string> {
    if TruthyText(f.message) then f.message else f.kind
  }

  function Categorize(d: Option<string>): Category {
    if d == Some("LOADCOMPLETE") || d == Some("SUBSCRIBECOMPLETE") || d == Some("STREAMERWELCOME") then Info
    else if d == Some("5") then Update
    else if d == Some("ERROR") then ProviderError
    else if d == Some("HEARTBEAT") then Heartbeat
    else Unrecognized
  }

  /** `t` copies the fields of `f` one for one and carries no fiat price. */
  predicate Copies(t: Ticker, f: Frame) {
    && t.flags == f.flags
    && t.from == f.fromSymbol
    && t.to == f.toSymbol
    && Some(t.price) == f.price
    && t.vol24hFrom == f.volume24h
    && t.vol24hTo == f.volume24hTo
    && t.vol24hTopFrom == f.topTierVolume24h
    && t.vol24hTopTo == f.topTierVolume24hTo
    && Some(t.timestamp) == f.lastUpdate
    && t.lastMarket == f.market
    && t.priceUSD == None
  }

  /** An event as the dispatcher builds it: its arguments repeat the ticker's fields. */
  predicate Consistent(e: Event) {
    && e.from == e.ticker.from
    && e.to == e.ticker.to
    && e.price == e.ticker.price
    && e.price != 0.0
    && e.ticker.timestamp != 0.0
    && e.ticker.priceUSD == None
  }

  function TickerOf(f: Frame): (t: Ticker)
    requires f.price.Some? && f.lastUpdate.Some?
    ensures Copies(t, f)
  {
    Ticker(f.flags, f.fromSymbol, f.toSymbol, f.price.value, f.volume24h, f.volume24hTo,
           f.topTierVolume24h, f.topTierVolume24hTo, f.lastUpdate.value, f.market, None)
  }

  /** The `message` handler: the event a raw input produces, if any. */
  function Dispatch(input: Input): (e: Option<Event>)
    ensures e.Some? <==>
              && input.Parsed?
              && Discriminator(input.frame) == Some("5")
              && TruthyNumber(input.frame.price)
              && TruthyNumber(input.frame.lastUpdate)
    ensures e.Some? ==> Copies(e.value.ticker, input.frame) && Consistent(e.value)
  {
    match input
    case Unparsable => None
    case Parsed(f) =>
      if Categorize(Discriminator(f)) == Update && TruthyNumber(f.price) && TruthyNumber(f.lastUpdate) then
        var t := TickerOf(f);
        Some(TickerUpdate(t.from, t.to, t.price, t))
      else
        None
  }

  /** A truthy `MESSAGE` decides alone: whatever `TYPE` holds, the outcome is the same. */
  lemma MessageOverridesType(f: Frame, kind: Option<string>)
    requires TruthyText(f.message)
    ensures Discriminator(f) == f.message
    ensures Dispatch(Parsed(f.(kind := kind))) == Dispatch(Parsed(f))
  {
  }

  /** A falsy `MESSAGE` (absent or empty) is ignored and `TYPE` decides. */
  lemma FalsyMessageDefersToType(f: Frame, message: Option<string>)
    requires !TruthyText(message)
    ensures Discriminator(f.(message := message)) == f.kind
    ensures !TruthyText(f.message) ==> Dispatch(Parsed(f.(message := message))) == Dispatch(Parsed(f))
  {
  }

  /** Informational, error, heartbeat, unrecognised and unparsable inputs emit nothing. */
  lemma NonTickerInputsAreSilent(input: Input)
    requires input.Unparsable? || Categorize(Discriminator(input.frame)) != Update
    ensures Dispatch(input) == None
  {
  }
}

=== FILE: heartbeat.dfy ===
/**
 Heartbeat accounting of one connection. Every interval the client sends a
 ping and counts it; every transport pong is counted. When three pings have
 gone out since the last reset, a window with no pong at all declares the link
 dead, and otherwise both counters restart before the next ping. A failing ping
 also forces a reconnect. The counters live inside one connection attempt, so
 a reconnect starts again from zero.
 */
module Heartbeat {

  const MaxPingsLost: nat := 3

  datatype Counters = Counters(pingsSent: nat, pongsReceived: nat)

  const Fresh := Counters(0, 0)

  /** An interval tick (with whether `ws.ping()` went through), or a pong. */
  datatype Signal = Tick(pingDelivered: bool) | Pong

  datatype Outcome = Continue(counters: Counters) | Reconnect

  predicate Bounded(c: Counters) {
    c.pingsSent <= MaxPingsLost
  }

  function Step(c: Counters, s: Signal): (o: Outcome)
    ensures Bounded(c) && o.Continue? ==> Bounded(o.counters)
    ensures s.Pong? ==> o == Continue(Counters(c.pingsSent, c.pongsReceived + 1))
    ensures s.Tick? ==>
              (o.Reconnect? <==> (c.pingsSent == MaxPingsLost && c.pongsReceived == 0) || !s.pingDelivered)
    ensures s.Tick? && o.Continue? && c.pingsSent == MaxPingsLost ==> o.counters == Counters(1, 0)
    ensures s.Tick? && o.Continue? && c.pingsSent != MaxPingsLost ==>
              o.counters == Counters(c.pingsSent + 1, c.pongsReceived)
  {
    match s
    case Pong => Continue(c.(pongsReceived := c.pongsReceived + 1))
    case Tick(delivered) =>
      if c.pingsSent == MaxPingsLost && c.pongsReceived == 0 then
        Reconnect
      else
        var base := if c.pingsSent == MaxPingsLost then Fresh else c;
        if !delivered then Reconnect
        else Continue(base.(pingsSent := base.pingsSent + 1))
  }

  /** A trace of signals from `c`, restarting from `Fresh` at every reconnect. */
  datatype Run = Run(final: Counters, reconnects: nat)

  function Replay(c: Counters, signals: seq<Signal>): Run
    decreases |signals|
  {
    if signals == [] then Run(c, 0)
    else
      match Step(c, signals[0])
      case Reconnect =>
        var r := Replay(Fresh, signals[1..]);
        Run(r.final, r.reconnects + 1)
      case Continue(next) => Replay(next, signals[1..])
  }

  /** The ping counter never passes three, whatever the trace. */
  lemma {:induction false} ReplayStaysBounded(c: Counters, signals: seq<Signal>)
    requires Bounded(c)
    ensures Bounded(Replay(c, signals).final)
    decreases |signals|
  {
    if signals != [] {
      match Step(c, signals[0])
      case Reconnect => ReplayStaysBounded(Fresh, signals[1..]);
      case Continue(next) => ReplayStaysBounded(next, signals[1..]);
    }
  }

  function Ticks(n: nat): (s: seq<Signal>)
    ensures |s| == n && forall i :: 0 <= i < n ==> s[i] == Tick(true)
  {
    seq(n, _ => Tick(true))
  }

  /** On a fresh connection that never hears a pong, three ticks pass and the fourth reconnects. */
  lemma SilentLinkReconnectsOnFourthTick()
    ensures Replay(Fresh, Ticks(3)) == Run(Counters(3, 0), 0)
    ensures Replay(Fresh, Ticks(4)) == Run(Fresh, 1)
  {
    assert Ticks(3)[1..] == Ticks(2) && Ticks(2)[1..] == Ticks(1) && Ticks(1)[1..] == [];
    assert Ticks(4)[1..] == Ticks(3);
  }

  /** `n` rounds of "ping, then its pong". */
  function Answered(n: nat): (s: seq<Signal>)
    ensures |s| == 2 * n
    decreases n
  {
    if n == 0 then [] else [Tick(true), Pong] + Answered(n - 1)
  }

  /** Counters that a link answering every ping passes through between rounds. */
  predicate AnsweredState(c: Counters) {
    c == Fresh || (1 <= c.pingsSent <= MaxPingsLost && c.pongsReceived >= 1)
  }

  /** A link that answers every ping is never declared dead. */
  lemma {:induction false} AnsweredLinkNeverReconnects(c: Counters, n: nat)
    requires AnsweredState(c)
    ensures Replay(c, Answered(n)).reconnects == 0
    ensures AnsweredState(Replay(c, Answered(n)).final)
    decreases n
  {
    if n > 0 {
      var s := Answered(n);
      assert s[0] == Tick(true) && s[1..][0] == Pong && s[1..][1..] == Answered(n - 1);
      var next := Step(c, Tick(true)).counters;
      assert Step(next, Pong).Continue?;
      AnsweredLinkNeverReconnects(Step(next, Pong).counters, n - 1);
    }
  }
}

=== FILE: js_core.dfy ===
/**
 Small pieces of JavaScript semantics that the rest of the model relies on:
 optional ("possibly undefined") values and their truthiness, template-literal
 conversion, `Math.round`, the one-character `String.prototype.replace`, and
 the default string order of `Array.prototype.sort`.
 */
module JsCore {

  /** A value that may be `undefined`. */
  datatype Option<+T> = None | Some(value: T)

  /** Truthiness of a string-or-undefined value: present and non-empty. */
  predicate TruthyText(s: Option<string>) {
    s.Some? && s.value != ""
  }

  /** Truthiness of a number-or-undefined value: present and non-zero (reals have no NaN). */
  predicate TruthyNumber(x: Option<real>) {
    x.Some? && x.value != 0.0
  }

  /** Template-literal conversion `${v}` of a string-or-undefined value. */
  function Show(s: Option<string>): string {
    if s.Some? then s.value else "undefined"
  }

  /** The `*` operator on numbers, modelled on reals. */
  function Times(a: real, b: real): real {
    a * b
  }

  /** `Math.round`: the nearest integer, a half rounded towards positive infinity. */
  function MathRound(x: real): (n: int)
    ensures x - 0.5 < n as real <= x + 0.5
  {
    (x + 0.5).Floor
  }

  /** `s.indexOf(c)` for a one-character pattern: the first position of `c`, or -1. */
  function IndexOf(s: string, c: char): (i: int)
    ensures -1 <= i < |s|
    ensures i == -1 <==> c !in s
    ensures 0 <= i ==> s[i] == c && c !in s[..i]
  {
    if s == [] then -1
    else if s[0] == c then 0
    else
      var j := IndexOf(s[1..], c);
      if j == -1 then -1
      else
        assert s[..j + 1] == [s[0]] + s[1..][..j];
        j + 1
  }

  /** `s.replace(a, b)` with one-character strings: only the first `a` is replaced. */
  function ReplaceFirst(s: string, a: char, b: char): (r: string)
    ensures |r| == |s|
    ensures forall k :: 0 <= k < |s| ==> r[k] == (if k == IndexOf(s, a) then b else s[k])
  {
    if s == [] then []
    else if s[0] == a then [b] + s[1..]
    else [s[0]] + ReplaceFirst(s[1..], a, b)
  }

  /** Replacing the first `a` by a `b` that did not occur is undone by replacing the first `b` by `a`. */
  lemma {:induction false} ReplaceFirstUndone(s: string, a: char, b: char)
    requires b !in s
    ensures ReplaceFirst(ReplaceFirst(s, a, b), b, a) == s
  {
    if s != [] && s[0] != a {
      assert s[0] != b;
      ReplaceFirstUndone(s[1..], a, b);
      assert ReplaceFirst(s, a, b) == [s[0]] + ReplaceFirst(s[1..], a, b);
    }
  }

  /**
   The order the default `Array.prototype.sort` puts strings in: the first
   differing character decides, and a proper prefix comes first.
   */
  predicate Less(a: string, b: string) {
    if a == [] then b != []
    else if b == [] then false
    else if a[0] != b[0] then a[0] < b[0]
    else Less(a[1..], b[1..])
  }

  lemma {:induction false} LessIrreflexive(a: string)
    ensures !Less(a, a)
  {
    if a != [] {
      LessIrreflexive(a[1..]);
    }
  }

  lemma {:induction false} LessAsymmetric(a: string, b: string)
    requires Less(a, b)
    ensures !Less(b, a)
  {
    if a != [] && b != [] && a[0] == b[0] {
      LessAsymmetric(a[1..], b[1..]);
    }
  }

  lemma {:induction false} LessTransitive(a: string, b: string, c: string)
    requires Less(a, b) && Less(b, c)
    ensures Less(a, c)
  {
    if a != [] && a[0] == b[0] && b[0] == c[0] {
      LessTransitive(a[1..], b[1..], c[1..]);
    }
  }

  lemma {:induction false} LessTotal(a: string, b: string)
    requires a != b
    ensures Less(a, b) || Less(b, a)
  {
    if a != [] && b != [] && a[0] == b[0] {
      assert a == [a[0]] + a[1..] && b == [b[0]] + b[1..];
      LessTotal(a[1..], b[1..]);
    }
  }
}

=== FILE: js_set.dfy ===
/**
 JavaScript `Set` semantics on values: an insertion-ordered collection
 without repeats, represented as a sequence.
 */
module JsSet {

  predicate NoDup<T(==)>(s: seq<T>) {
    forall i, j :: 0 <= i < j < |s| ==> s[i] != s[j]
  }

  function Elems<T>(s: seq<T>): set<T> {
    set x | x in s
  }

  /** `set.add(x)`: a new `x` goes last, a present one keeps its place and nothing moves. */
  function Add<T(==)>(s: seq<T>, x: T): (r: seq<T>)
    ensures Elems(r) == Elems(s) + {x}
    ensures NoDup(s) ==> NoDup(r)
    ensures |s| <= |r| <= |s| + 1 && r[..|s|] == s
    ensures x in s ==> r == s
  {
    if x in s then s else s + [x]
  }

  /** `set.delete(x)`: `x` goes, the other entries keep their relative order. */
  function Delete<T(==)>(s: seq<T>, x: T): (r: seq<T>)
    ensures Elems(r) == Elems(s) - {x}
    ensures NoDup(s) ==> NoDup(r)
    ensures x !in s ==> r == s
    ensures NoDup(s) && x in s ==> |r| == |s| - 1
    ensures NoDup(s) && x in s ==> exists i :: 0 <= i < |s| && s[i] == x && r == s[..i] + s[i + 1..]
  {
    if s == [] then []
    else
      var rest := Delete(s[1..], x);
      if s[0] == x then
        DeletionConsHead(s, x, rest);
        rest
      else
        DeletionConsKeep(s, x, rest);
        [s[0]] + rest
  }

  /** The guarantees of `Delete`, bundled so that one step of its recursion can be proved apart. */
  ghost predicate IsDeletion<T>(s: seq<T>, x: T, r: seq<T>) {
    && Elems(r) == Elems(s) - {x}
    && (NoDup(s) ==> NoDup(r))
    && (x !in s ==> r == s)
    && (NoDup(s) && x in s ==> |r| == |s| - 1)
    && (NoDup(s) && x in s ==> exists i :: 0 <= i < |s| && s[i] == x && r == s[..i] + s[i + 1..])
  }

  /** Deleting from the tail when the head is `x` itself is a deletion from the whole. */
  lemma DeletionConsHead<T>(s: seq<T>, x: T, rest: seq<T>)
    requires |s| > 0 && s[0] == x && IsDeletion(s[1..], x, rest)
    ensures IsDeletion(s, x, rest)
  {
    ElemsOfCons(s);
    assert Elems(rest) == Elems(s) - {x};
    if NoDup(s) {
      NoDupTail(s);
      HeadNotInTail(s);
      assert rest == s[1..];
      assert s[..0] + s[1..] == s[1..];
    }
  }

  /** Deleting from the tail and putting back a head other than `x` is a deletion from the whole. */
  lemma DeletionConsKeep<T>(s: seq<T>, x: T, rest: seq<T>)
    requires |s| > 0 && s[0] != x && IsDeletion(s[1..], x, rest)
    ensures IsDeletion(s, x, [s[0]] + rest)
  {
    var r := [s[0]] + rest;
    ElemsOfCons(s);
    assert Elems(r) == Elems(s) - {x} by {
      ElemsOfCons(r);
      assert r[0] == s[0] && r[1..] == rest;
    }
    assert NoDup(s) ==> NoDup(r) by {
      if NoDup(s) {
        NoDupTail(s);
        KeptHeadNoDup(s, rest);
      }
    }
    assert x !in s ==> r == s by {
      if x !in s {
        assert x !in s[1..];
        assert s == [s[0]] + s[1..];
      }
    }
    if NoDup(s) && x in s {
      NoDupTail(s);
      assert x in s[1..];
      assert |r| == |s| - 1;
      CutBehindHead(s, x, rest);
    }
  }

  lemma HeadNotInTail<T>(s: seq<T>)
    requires |s| > 0 && NoDup(s)
    ensures s[0] !in s[1..]
  {
    forall k | 0 <= k < |s[1..]|
      ensures s[1..][k] != s[0]
    {
      assert s[1..][k] == s[k + 1];
    }
  }

  lemma NoDupTail<T>(s: seq<T>)
    requires |s| > 0 && NoDup(s)
    ensures NoDup(s[1..])
  {
    forall i, j | 0 <= i < j < |s[1..]|
      ensures s[1..][i] != s[1..][j]
    {
      assert s[1..][i] == s[i + 1] && s[1..][j] == s[j + 1];
    }
  }

  /** A head missing from a repeat-free tail stays repeat-free in front of it. */
  lemma KeptHeadNoDup<T>(s: seq<T>, rest: seq<T>)
    requires |s| > 0 && NoDup(s) && Elems(rest) <= Elems(s[1..]) && (NoDup(s[1..]) ==> NoDup(rest))
    ensures NoDup([s[0]] + rest)
  {
    NoDupTail(s);
    HeadNotInTail(s);
    assert s[0] !in Elems(s[1..]);
    var r := [s[0]] + rest;
    forall i, j | 0 <= i < j < |r|
      ensures r[i] != r[j]
    {
      if i == 0 {
        assert r[j] == rest[j - 1] && rest[j - 1] in Elems(rest);
      } else {
        assert r[i] == rest[i - 1] && r[j] == rest[j - 1];
      }
    }
  }

  /** A cut made in the tail of `s` is a cut in `s` itself, one position further on. */
  lemma CutBehindHead<T>(s: seq<T>, x: T, rest: seq<T>)
    requires |s| > 0
    requires exists j :: 0 <= j < |s[1..]| && s[1..][j] == x && rest == s[1..][..j] + s[1..][j + 1..]
    ensures exists i :: 0 <= i < |s| && s[i] == x && [s[0]] + rest == s[..i] + s[i + 1..]
  {
    var j :| 0 <= j < |s[1..]| && s[1..][j] == x && rest == s[1..][..j] + s[1..][j + 1..];
    assert s[..j + 1] == [s[0]] + s[1..][..j] && s[j + 2..] == s[1..][j + 1..];
    assert s[j + 1] == x && [s[0]] + rest == s[..j + 1] + s[j + 2..];
  }

  lemma ElemsEmpty<T>(s: seq<T>)
    ensures Elems(s) == {} <==> s == []
  {
    if s != [] {
      assert s[0] in Elems(s);
    }
  }

  lemma ElemsOfCons<T>(xs: seq<T>)
    requires xs != []
    ensures Elems(xs) == {xs[0]} + Elems(xs[1..])
  {
    assert forall x :: x in xs <==> x == xs[0] || x in xs[1..];
  }

  lemma PrefixOfPrefix<T>(a: seq<T>, b: seq<T>, c: seq<T>)
    requires |a| <= |b| <= |c| && b[..|a|] == a && c[..|b|] == b
    ensures c[..|a|] == a
  {
    assert c[..|a|] == c[..|b|][..|a|];
  }

  /** `xs.forEach(x => set.add(x))`. */
  function AddAll<T(==)>(s: seq<T>, xs: seq<T>): (r: seq<T>)
    ensures Elems(r) == Elems(s) + Elems(xs)
    ensures NoDup(s) ==> NoDup(r)
    ensures |s| <= |r| && r[..|s|] == s
    decreases |xs|
  {
    if xs == [] then s
    else
      var t := Add(s, xs[0]);
      var r := AddAll(t, xs[1..]);
      ElemsOfCons(xs);
      PrefixOfPrefix(s, t, r);
      r
  }

  /** Adding two runs one after the other is adding their concatenation. */
  lemma {:induction false} AddAllConcat<T>(s: seq<T>, xs: seq<T>, ys: seq<T>)
    ensures AddAll(s, xs + ys) == AddAll(AddAll(s, xs), ys)
    decreases |xs|
  {
    if xs == [] {
      assert xs + ys == ys;
    } else {
      assert (xs + ys)[0] == xs[0] && (xs + ys)[1..] == xs[1..] + ys;
      AddAllConcat(Add(s, xs[0]), xs[1..], ys);
    }
  }
}

=== FILE: price_table.dfy ===
/**
 The live price table kept by the command-line tool: every `ticker:update`
 stores its ticker under the pair key "FROM-TO" and, for a pair quoted in BTC
 or ETH, attaches a dollar price bridged through the BTC-USD or ETH-USD ticker
 present at that moment.
 */
module PriceTable {
  import opened JsCore
  import opened Frames

  type Table = map<string, Ticker>

  /** `${from}-${to}`. */
  function PairKey(from: Option<string>, to: Option<string>): string {
    Show(from) + "-" + Show(to)
  }

  const BtcUsd := "BTC-USD"
  const EthUsd := "ETH-USD"

  /** A pair quoted in BTC never has the key of the BTC-USD bridge, nor the ETH-USD one. */
  lemma QuotedPairIsNotABridge(from: Option<string>, to: string)
    requires to == "BTC" || to == "ETH"
    ensures PairKey(from, Some(to)) != BtcUsd && PairKey(from, Some(to)) != EthUsd
  {
    var k := PairKey(from, Some(to));
    assert k[|k| - 1] == to[2];
  }

  /** The `ticker:update` listener. */
  function OnTickerUpdate(t: Table, e: Event): (t': Table)
    ensures t'.Keys == t.Keys + {PairKey(e.from, e.to)}
    ensures forall k :: k in t && k != PairKey(e.from, e.to) ==> t'[k] == t[k]
    ensures t'[PairKey(e.from, e.to)].(priceUSD := e.ticker.priceUSD) == e.ticker
    ensures e.to == Some("BTC") && BtcUsd in t ==>
              t'[PairKey(e.from, e.to)].priceUSD == Some(Times(t[BtcUsd].price, e.price))
    ensures e.to == Some("ETH") && EthUsd in t ==>
              t'[PairKey(e.from, e.to)].priceUSD == Some(Times(t[EthUsd].price, e.price))
    ensures !(e.to == Some("BTC") && BtcUsd in t) && !(e.to == Some("ETH") && EthUsd in t) ==>
              t'[PairKey(e.from, e.to)] == e.ticker
  {
    var key := PairKey(e.from, e.to);
    var stored := t[key := e.ticker];
    if e.to == Some("BTC") && BtcUsd in stored then
      QuotedPairIsNotABridge(e.from, "BTC");
      var bridge := stored[BtcUsd].price;
      assert bridge == t[BtcUsd].price;
      stored[key := e.ticker.(priceUSD := Some(Times(bridge, e.price)))]
    else if e.to == Some("ETH") && EthUsd in stored then
      QuotedPairIsNotABridge(e.from, "ETH");
      var bridge := stored[EthUsd].price;
      assert bridge == t[EthUsd].price;
      stored[key := e.ticker.(priceUSD := Some(Times(bridge, e.price)))]
    else
      stored
  }

  /**
   What an entry of a table fed only by the dispatcher looks like: it sits
   under its own pair key, its price and timestamp are non-zero, and a dollar
   price is present only for a BTC- or ETH-quoted pair, and then non-zero.
   */
  predicate ValidEntry(k: string, x: Ticker) {
    && k == PairKey(x.from, x.to)
    && x.price != 0.0
    && x.timestamp != 0.0
    && (x.priceUSD.Some? ==> (x.to == Some("BTC") || x.to == Some("ETH")) && x.priceUSD.value != 0.0)
  }

  predicate Valid(t: Table) {
    forall k :: k in t ==> ValidEntry(k, t[k])
  }

  /** An update with an event the dispatcher could have emitted keeps the table valid. */
  lemma UpdateKeepsValid(t: Table, e: Event)
    requires Valid(t) && Consistent(e)
    ensures Valid(OnTickerUpdate(t, e))
  {
    var key := PairKey(e.from, e.to);
    var u := OnTickerUpdate(t, e);
    forall k | k in u ensures ValidEntry(k, u[k]) {
      if k == key {
        assert u[k].(priceUSD := e.ticker.priceUSD) == e.ticker;
        if u[k].priceUSD.Some? {
          assert e.to == Some("BTC") || e.to == Some("ETH");
        }
      } else {
        assert u[k] == t[k];
      }
    }
  }

  /** Feed a sequence of socket inputs through the dispatcher into the table. */
  function Ingest(t: Table, inputs: seq<Input>): Table
    decreases |inputs|
  {
    if inputs == [] then t
    else
      match Dispatch(inputs[0])
      case None => Ingest(t, inputs[1..])
      case Some(e) => Ingest(OnTickerUpdate(t, e), inputs[1..])
  }

  /** Whatever the feed delivers, a table that starts valid stays valid. */
  lemma {:induction false} IngestKeepsValid(t: Table, inputs: seq<Input>)
    requires Valid(t)
    ensures Valid(Ingest(t, inputs))
    decreases |inputs|
  {
    if inputs != [] {
      match Dispatch(inputs[0])
      case None => IngestKeepsValid(t, inputs[1..]);
      case Some(e) =>
        UpdateKeepsValid(t, e);
        IngestKeepsValid(OnTickerUpdate(t, e), inputs[1..]);
    }
  }

  /** Inputs that emit nothing leave the table exactly as it was. */
  lemma {:induction false} SilentInputsLeaveTable(t: Table, inputs: seq<Input>)
    requires forall i :: 0 <= i < |inputs| ==> Dispatch(inputs[i]) == None
    ensures Ingest(t, inputs) == t
    decreases |inputs|
  {
    if inputs != [] {
      SilentInputsLeaveTable(t, inputs[1..]);
    }
  }
}

=== FILE: scenarios.dfy ===
/**
 Worked examples: a ticker frame fed end to end into the price table, a BTC
 quote bridged to dollars, an ETH holding valued and rounded, a coin left
 without a price, and the staleness flag on either side of the limit.
 */
module Scenarios {
  import opened JsCore
  import opened Frames
  import opened PriceTable
  import opened Display
  import opened Valuation

  function TickerFrame(from: string, to: string, price: real, now: real): Frame {
    Frame(None, Some("5"), None, Some(from), Some(to), Some(price), None, None, None, None, Some(now), None)
  }

  /** A BTC-USD frame at 50000 lands in the table under "BTC-USD" with that price. */
  lemma EndToEndBtcUsd(now: real)
    requires now != 0.0
    ensures var t := Ingest(map[], [Parsed(TickerFrame("BTC", "USD", 50000.0, now))]);
            BtcUsd in t && t[BtcUsd].price == 50000.0 && t[BtcUsd].timestamp == now
  {
    var input := Parsed(TickerFrame("BTC", "USD", 50000.0, now));
    var e := Dispatch(input);
    assert e.Some?;
    assert PairKey(e.value.from, e.value.to) == BtcUsd;
    assert Ingest(map[], [input]) == Ingest(OnTickerUpdate(map[], e.value), []);
  }

  /** With BTC-USD at 50000, a COIN-BTC quote of 0.002 is worth 100 dollars. */
  lemma BridgedThroughBtc(btc: Ticker, coin: Ticker, now: real)
    requires btc.price == 50000.0
    requires coin.from == Some("COIN") && coin.to == Some("BTC") && coin.price == 0.002
    ensures var key := PairKey(coin.from, coin.to);
            key == "COIN-BTC"
            && OnTickerUpdate(map[BtcUsd := btc], TickerUpdate(coin.from, coin.to, coin.price, coin))[key].priceUSD
               == Some(100.0)
  {
    assert Times(50000.0, 0.002) == 100.0;
  }

  /** Ten ETH at 3000 dollars are worth 30000, shown as 30000 by the whole-number tier. */
  lemma EthHoldingValued(t: Table, now: real)
    requires "ETH-USD" in t && t["ETH-USD"].price == 3000.0
    ensures Value(t, Holding("ETH", [Wallet(Some(10.0))]), now).Some?
    ensures Value(t, Holding("ETH", [Wallet(Some(10.0))]), now).value.total == 30000.0
    ensures Round(30000.0) == 30000.0
  {
    assert "ETH" + "-USD" == "ETH-USD";
    assert Resolve(t, "ETH").value.price == 3000.0;
    assert Quantity([Wallet(Some(10.0))]) == 10.0;
    assert Times(10.0, 3000.0) == 30000.0;
    assert NearestMultiple(30000.0, 30000.0, 1.0);
    NearestMultipleUnique(Round(30000.0), 30000.0, 30000.0, 1.0);
  }

  /** A coin with no quote at all is missing and valued nowhere. */
  lemma CoinWithoutQuoteIsMissing(now: real)
    ensures PortfolioStats(map[], [Holding("XYZ", [Wallet(Some(5.0))])], now) == Stats(map[], ["XYZ"])
  {
    assert Resolve(map[], "XYZ") == None;
  }

  /** Two hours old is outdated, a hundred seconds old is not. */
  lemma StalenessAroundTheLimit(t: Ticker, now: real)
    ensures t.timestamp == now - 7200.0 ==> FormatTicker(t, now, false).outdated == OutdatedSymbol
    ensures t.timestamp == now - 100.0 ==> FormatTicker(t, now, false).outdated == ""
  {
  }
}

=== FILE: streamer.dfy ===
/**
 The ticker streamer as one reactive client: the subscription registry, the
 command log and the heartbeat counters of the current connection attempt,
 driven by the events the socket, the interval timer and the caller deliver.
 A reconnect keeps the registry and restarts the counters; the next `open`
 replays the registry.
 */
module Streamer {
  import opened JsCore
  import JsSet
  import Frames
  import Heartbeat
  import opened Subscriptions

  datatype Client = Client(registry: Registry, counters: Heartbeat.Counters)

  /** Everything that can happen to the client. */
  datatype Stimulus =
    | Opened                              // ws 'open'
    | Received(input: Frames.Input)       // ws 'message'
    | IntervalElapsed(pingDelivered: bool) // the ping interval fires
    | PongReceived                        // ws 'pong'
    | TransportError                      // ws 'error', which is only logged
    | SubscribeCall(entry: Entry)         // subscribe(subs)
    | UnsubscribeCall(entry: Entry)       // unsubscribe(subs)

  /** The new client state, the event emitted to listeners, and whether the link was torn down. */
  datatype Reaction = Reaction(client: Client, emitted: Option<Frames.Event>, reconnected: bool)

  /** A client before its first `connect`: no subscriptions, nothing sent, fresh counters. */
  const Initial := Client(Registry([], []), Heartbeat.Fresh)

  function Beat(c: Client, s: Heartbeat.Signal): Reaction {
    match Heartbeat.Step(c.counters, s)
    case Continue(next) => Reaction(c.(counters := next), None, false)
    case Reconnect => Reaction(c.(counters := Heartbeat.Fresh), None, true)
  }

  function Step(c: Client, s: Stimulus): (r: Reaction)
    ensures s.Received? ==> r == Reaction(c, Frames.Dispatch(s.input), false)
    ensures !s.Received? ==> r.emitted == None
    ensures r.reconnected <==>
              && s.IntervalElapsed?
              && ((c.counters.pingsSent == Heartbeat.MaxPingsLost && c.counters.pongsReceived == 0)
                  || !s.pingDelivered)
    ensures r.reconnected ==> r.client == Client(c.registry, Heartbeat.Fresh)
    ensures (s.IntervalElapsed? || s.PongReceived?) ==> r.client.registry == c.registry
    ensures !(s.IntervalElapsed? || s.PongReceived?) ==> r.client.counters == c.counters
    ensures Heartbeat.Bounded(c.counters) ==> Heartbeat.Bounded(r.client.counters)
    ensures s.Opened? ==> r.client.registry == OnOpen(c.registry)
    ensures s.SubscribeCall? ==> r.client.registry == Subscribe(c.registry, s.entry)
    ensures s.UnsubscribeCall? ==> r.client.registry == Unsubscribe(c.registry, s.entry)
    ensures s.TransportError? ==> r == Reaction(c, None, false)
  {
    match s
    case Opened => Reaction(c.(registry := OnOpen(c.registry)), None, false)
    case Received(input) => Reaction(c, Frames.Dispatch(input), false)
    case IntervalElapsed(delivered) => Beat(c, Heartbeat.Tick(delivered))
    case PongReceived => Beat(c, Heartbeat.Pong)
    case TransportError => Reaction(c, None, false)
    case SubscribeCall(e) => Reaction(c.(registry := Subscribe(c.registry, e)), None, false)
    case UnsubscribeCall(e) => Reaction(c.(registry := Unsubscribe(c.registry, e)), None, false)
  }

  /** The client after a sequence of stimuli. */
  function Run(c: Client, ss: seq<Stimulus>): Client
    decreases |ss|
  {
    if ss == [] then c else Run(Step(c, ss[0]).client, ss[1..])
  }

  /** Whatever happens, the ping counter of the live connection never exceeds three. */
  lemma {:induction false} RunKeepsPingsBounded(c: Client, ss: seq<Stimulus>)
    requires Heartbeat.Bounded(c.counters)
    ensures Heartbeat.Bounded(Run(c, ss).counters)
    decreases |ss|
  {
    if ss != [] {
      RunKeepsPingsBounded(Step(c, ss[0]).client, ss[1..]);
    }
  }

  /** The registry's set of entries, as pure set operations over a sequence of calls. */
  ghost function EntriesAfter(entries: set<Entry>, ss: seq<Stimulus>): set<Entry>
    decreases |ss|
  {
    if ss == [] then entries
    else
      var next :=
        match ss[0]
        case SubscribeCall(e) => entries + {e}
        case UnsubscribeCall(e) => entries - {e}
        case _ => entries;
      EntriesAfter(next, ss[1..])
  }

  /**
   Whatever the interleaving of calls, frames, heartbeats and reconnects, the
   registry holds exactly the entries the set semantics of `subscribe` and
   `unsubscribe` predicts, without repeats.
   */
  lemma {:induction false} RunTracksEntries(c: Client, ss: seq<Stimulus>)
    requires JsSet.NoDup(c.registry.subs)
    ensures JsSet.Elems(Run(c, ss).registry.subs) == EntriesAfter(JsSet.Elems(c.registry.subs), ss)
    ensures JsSet.NoDup(Run(c, ss).registry.subs)
    decreases |ss|
  {
    if ss != [] {
      var c' := Step(c, ss[0]).client;
      RunTracksEntries(c', ss[1..]);
    }
  }

  /**
   From a new client, any run holds exactly the entries subscribed and not
   since unsubscribed, without repeats, and never more than three pings unanswered.
   */
  lemma StartedClientTracksEntries(ss: seq<Stimulus>)
    ensures JsSet.Elems(Run(Initial, ss).registry.subs) == EntriesAfter({}, ss)
    ensures JsSet.NoDup(Run(Initial, ss).registry.subs)
    ensures Heartbeat.Bounded(Run(Initial, ss).counters)
  {
    JsSet.ElemsEmpty(Initial.registry.subs);
    RunTracksEntries(Initial, ss);
    RunKeepsPingsBounded(Initial, ss);
  }

  /**
   A reconnect forced by the heartbeat, then the new socket's `open`: the
   registry is untouched, the counters are fresh, and exactly one `SubAdd` per
   stored entry is sent, in the registry's order.
   */
  lemma ReconnectReplaysRegistry(c: Client, delivered: bool)
    requires Step(c, IntervalElapsed(delivered)).reconnected
    ensures var c2 := Step(Step(c, IntervalElapsed(delivered)).client, Opened).client;
            && c2.registry.subs == c.registry.subs
            && c2.counters == Heartbeat.Fresh
            && c2.registry.sent == c.registry.sent + SubAdds(c.registry.subs)
  {
  }

  /** The tokens of all commands in a log. */
  function TokensSent(cs: seq<Command>): set<string> {
    set c, t | c in cs && t in c.tokens :: t
  }

  /** The tokens of every stored entry. */
  function TokensWanted(subs: seq<Entry>): set<string> {
    set e, t | e in subs && t in Tokens(e) :: t
  }

  /**
   The replay on `open` only subscribes, and the channels it subscribes to are
   exactly those of the stored entries, no more and no fewer.
   */
  lemma ReplaySubscribesExactlyTheRegistry(r: Registry)
    ensures var replay := OnOpen(r).sent[|r.sent|..];
            && (forall i :: 0 <= i < |replay| ==> replay[i].action == SubAdd)
            && TokensSent(replay) == TokensWanted(r.subs)
  {
    var replay := OnOpen(r).sent[|r.sent|..];
    assert replay == SubAdds(r.subs);
    SubAddsSendWanted(r.subs);
  }

  lemma SubAddsSendWanted(es: seq<Entry>)
    ensures TokensSent(SubAdds(es)) == TokensWanted(es)
  {
    var cs := SubAdds(es);
    forall t | t in TokensSent(cs)
      ensures t in TokensWanted(es)
    {
      var c :| c in cs && t in c.tokens;
      var i :| 0 <= i < |cs| && cs[i] == c;
      assert es[i] in es && t in Tokens(es[i]);
    }
    forall t | t in TokensWanted(es)
      ensures t in TokensSent(cs)
    {
      var e :| e in es && t in Tokens(e);
      var i :| 0 <= i < |es| && es[i] == e;
      assert cs[i] in cs && t in cs[i].tokens;
    }
  }
}

=== FILE: subscriptions.dfy ===
/**
 The subscription registry of the ticker streamer and its wire encoding.
 `subscribe` and `unsubscribe` store or drop their argument exactly as given (a
 single pair key or a whole array of them) and each send one command; on every
 `open` the stored entries are sent again, one `SubAdd` per entry. The socket
 is modelled as the append-only log of commands sent on it.
 */
module Subscriptions {
  import opened JsCore
  import JsSet

  /** The argument of `subscribe`/`unsubscribe`: one "FROM-TO" key or an array of them. */
  datatype Entry = Pair(key: string) | Pairs(keys: seq<string>)

  datatype Action = SubAdd | SubRemove

  /** `{"action": ..., "subs": [token, ...]}`. */
  datatype Command = Command(action: Action, tokens: seq<string>)

  /** `subs` (an insertion-ordered set of entries) and the log of commands sent. */
  datatype Registry = Registry(subs: seq<Entry>, sent: seq<Command>)

  const Prefix := "5~CCCAGG~"

  /** The channel token of a pair key: the aggregate-index prefix, then the key with its first '-' as '~'. */
  function Token(key: string): (t: string)
    ensures |t| == |Prefix| + |key| && t[..|Prefix|] == Prefix
    ensures forall k :: 0 <= k < |key| ==>
              t[|Prefix| + k] == (if k == IndexOf(key, '-') then '~' else key[k])
  {
    Prefix + ReplaceFirst(key, '-', '~')
  }

  /** The pair key a token stands for, when the token has the streamer prefix. */
  function KeyOf(token: string): Option<string> {
    if |token| >= |Prefix| && token[..|Prefix|] == Prefix
    then Some(ReplaceFirst(token[|Prefix|..], '~', '-'))
    else None
  }

  /** Any pair key without a '~' of its own is recovered from its token. */
  lemma TokenRoundTrip(key: string)
    requires '~' !in key
    ensures KeyOf(Token(key)) == Some(key)
  {
    ReplaceFirstUndone(key, '-', '~');
    assert Token(key)[|Prefix|..] == ReplaceFirst(key, '-', '~');
  }

  /** `Array.isArray(subs) ? subs : [subs]`. */
  function Keys(e: Entry): seq<string> {
    match e
    case Pair(k) => [k]
    case Pairs(ks) => ks
  }

  /** `subs.map(sub => token)`: one token per key, in order. */
  function Tokens(e: Entry): (ts: seq<string>)
    ensures |ts| == |Keys(e)|
    ensures forall i :: 0 <= i < |ts| ==> ts[i] == Token(Keys(e)[i])
  {
    var ks := Keys(e);
    seq(|ks|, i requires 0 <= i < |ks| => Token(ks[i]))
  }

  function Subscribe(r: Registry, e: Entry): (r': Registry)
    ensures JsSet.Elems(r'.subs) == JsSet.Elems(r.subs) + {e}
    ensures JsSet.NoDup(r.subs) ==> JsSet.NoDup(r'.subs)
    ensures e in r.subs ==> r'.subs == r.subs
    ensures r'.sent == r.sent + [Command(SubAdd, Tokens(e))]
  {
    Registry(JsSet.Add(r.subs, e), r.sent + [Command(SubAdd, Tokens(e))])
  }

  function Unsubscribe(r: Registry, e: Entry): (r': Registry)
    ensures JsSet.Elems(r'.subs) == JsSet.Elems(r.subs) - {e}
    ensures JsSet.NoDup(r.subs) ==> JsSet.NoDup(r'.subs)
    ensures r'.sent == r.sent + [Command(SubRemove, Tokens(e))]
  {
    Registry(JsSet.Delete(r.subs, e), r.sent + [Command(SubRemove, Tokens(e))])
  }

  /** One `SubAdd` per entry, in order. */
  function SubAdds(entries: seq<Entry>): (cs: seq<Command>)
    ensures |cs| == |entries|
    ensures forall i :: 0 <= i < |entries| ==> cs[i] == Command(SubAdd, Tokens(entries[i]))
  {
    if entries == [] then [] else [Command(SubAdd, Tokens(entries[0]))] + SubAdds(entries[1..])
  }

  lemma ConcatAssociative<T>(a: seq<T>, b: seq<T>, c: seq<T>)
    ensures a + b + c == a + (b + c)
  {
  }

  /** `entries.forEach(sub => this.subscribe(sub))` over entries that are already stored. */
  function Resubscribe(r: Registry, entries: seq<Entry>): (r': Registry)
    requires forall i :: 0 <= i < |entries| ==> entries[i] in r.subs
    ensures r'.subs == r.subs
    ensures r'.sent == r.sent + SubAdds(entries)
    decreases |entries|
  {
    if entries == [] then r
    else
      var r1 := Subscribe(r, entries[0]);
      assert r1.subs == r.subs;
      assert forall i :: 0 <= i < |entries[1..]| ==> entries[1..][i] == entries[i + 1];
      var r' := Resubscribe(r1, entries[1..]);
      assert SubAdds(entries) == [Command(SubAdd, Tokens(entries[0]))] + SubAdds(entries[1..]);
      assert r'.sent == r1.sent + SubAdds(entries[1..]);
      ConcatAssociative(r.sent, [Command(SubAdd, Tokens(entries[0]))], SubAdds(entries[1..]));
      r'
  }

  /** The `open` handler: every stored entry is sent again as its own `SubAdd`, and `subs` stays as it was. */
  function OnOpen(r: Registry): (r': Registry)
    ensures r'.subs == r.subs
    ensures r'.sent == r.sent + SubAdds(r.subs)
  {
    if |r.subs| > 0 then Resubscribe(r, r.subs) else r
  }
}

=== FILE: summary.dfy ===
/**
 The report computed when stats are saved: one ticker line per table entry
 (two when the entry has a dollar price), in key order; and the summary of the
 valued coins, dropping those worth nothing except BTC, with the total balance
 and the rows ordered by rounded balance, highest first. The keys are sorted
 first and the sort by balance is stable, so rows of equal balance stay in key
 order.
 */
module Summary {
  import opened JsCore
  import opened Frames
  import opened PriceTable
  import opened Display
  import opened Valuation
  import JsSet

  const TargetCurrency := "USD"

  predicate Increasing(ks: seq<string>) {
    forall i, j :: 0 <= i < j < |ks| ==> Less(ks[i], ks[j])
  }

  /** Put `k` into its place in an increasing sequence. */
  function InsertKey(k: string, ks: seq<string>): (r: seq<string>)
    requires Increasing(ks) && k !in ks
    ensures Increasing(r)
    ensures JsSet.Elems(r) == JsSet.Elems(ks) + {k}
    decreases |ks|
  {
    if ks == [] then [k]
    else if Less(k, ks[0]) then
      forall j | 0 < j < |ks| ensures Less(k, ks[j]) {
        LessTransitive(k, ks[0], ks[j]);
      }
      [k] + ks
    else
      LessTotal(k, ks[0]);
      var rest := InsertKey(k, ks[1..]);
      assert ks == [ks[0]] + ks[1..];
      forall j | 0 <= j < |rest| ensures Less(ks[0], rest[j]) {
        assert rest[j] in JsSet.Elems(rest);
      }
      assert JsSet.Elems([ks[0]] + rest) == {ks[0]} + JsSet.Elems(rest);
      [ks[0]] + rest
  }

  /** `Object.keys(m).sort()`. */
  method SortedKeys(keys: set<string>) returns (ks: seq<string>)
    ensures Increasing(ks)
    ensures JsSet.Elems(ks) == keys
  {
    ks := [];
    var rest := keys;
    while rest != {}
      invariant Increasing(ks)
      invariant JsSet.Elems(ks) + rest == keys
      invariant JsSet.Elems(ks) !! rest
      decreases rest
    {
      var k :| k in rest;
      assert k !in JsSet.Elems(ks);
      ks := InsertKey(k, ks);
      rest := rest - {k};
    }
  }

  /** Two increasing sequences of the same keys are the same sequence: the sorted order is unique. */
  lemma {:induction false} IncreasingUnique(a: seq<string>, b: seq<string>)
    requires Increasing(a) && Increasing(b) && JsSet.Elems(a) == JsSet.Elems(b)
    ensures a == b
    decreases |a|
  {
    JsSet.ElemsEmpty(a);
    JsSet.ElemsEmpty(b);
    if a != [] {
      assert b != [] by {
        assert a[0] in JsSet.Elems(a);
      }
      assert a[0] in JsSet.Elems(b) && b[0] in JsSet.Elems(a);
      var i :| 0 <= i < |a| && a[i] == b[0];
      var j :| 0 <= j < |b| && b[j] == a[0];
      if a[0] != b[0] {
        assert i > 0 && j > 0;
        assert Less(a[0], b[0]) && Less(b[0], a[0]);
        LessAsymmetric(a[0], b[0]);
      }
      forall x ensures x in a[1..] <==> x in b[1..] {
        assert x in a <==> x in JsSet.Elems(a);
        assert x in b <==> x in JsSet.Elems(b);
        assert x in a <==> x == a[0] || x in a[1..] by {
          assert a == [a[0]] + a[1..];
        }
        assert x in b <==> x == b[0] || x in b[1..] by {
          assert b == [b[0]] + b[1..];
        }
        if x in a[1..] && x == a[0] {
          var k :| 0 <= k < |a[1..]| && a[1..][k] == x;
          assert Less(a[0], a[k + 1]);
          LessIrreflexive(x);
        }
        if x in b[1..] && x == b[0] {
          var k :| 0 <= k < |b[1..]| && b[1..][k] == x;
          assert Less(b[0], b[k + 1]);
          LessIrreflexive(x);
        }
      }
      assert JsSet.Elems(a[1..]) == JsSet.Elems(b[1..]);
      assert Increasing(a[1..]) by {
        forall p, q | 0 <= p < q < |a[1..]| ensures Less(a[1..][p], a[1..][q]) {
          assert a[1..][p] == a[p + 1] && a[1..][q] == a[q + 1];
        }
      }
      assert Increasing(b[1..]) by {
        forall p, q | 0 <= p < q < |b[1..]| ensures Less(b[1..][p], b[1..][q]) {
          assert b[1..][p] == b[p + 1] && b[1..][q] == b[q + 1];
        }
      }
      IncreasingUnique(a[1..], b[1..]);
      assert a[0] == b[0] && a[1..] == b[1..];
      assert a == [a[0]] + a[1..] && b == [b[0]] + b[1..];
    }
  }

  /** The ticker lines for the keys `ks`, in that order. */
  function ViewsFor(table: Table, ks: seq<string>, now: real): seq<View>
    requires forall i :: 0 <= i < |ks| ==> ks[i] in table
    decreases |ks|
  {
    if ks == [] then []
    else
      var t := table[ks[0]];
      [FormatTicker(t, now, false)]
      + (if TruthyNumber(t.priceUSD) then [FormatTicker(t, now, true)] else [])
      + ViewsFor(table, ks[1..], now)
  }

  /** The `tickersLines` of `saveStats`: every ticker in key order, bridged ones a second time in dollars. */
  method TickerLines(table: Table, now: real) returns (lines: seq<View>)
    ensures exists ks :: Increasing(ks) && JsSet.Elems(ks) == table.Keys && lines == ViewsFor(table, ks, now)
  {
    var ks := SortedKeys(table.Keys);
    assert forall i :: 0 <= i < |ks| ==> ks[i] in JsSet.Elems(ks);
    lines := ViewsFor(table, ks, now);
  }

  /** One line of the summary. */
  datatype Row = Row(coin: string, coinBalance: real, currency: string, price: real, balance: real)

  function RowOf(coin: string, s: CoinStat): Row {
    Row(coin, Round(s.totalOriginal), TargetCurrency, Round(s.price), Round(s.total))
  }

  /** A coin makes the summary when it is worth something, and BTC always does. */
  predicate Shown(coins: map<string, CoinStat>, c: string) {
    c in coins && (coins[c].total != 0.0 || c == "BTC")
  }

  /** Summary order: higher balance first; on equal balance, the coin earlier in key order. */
  predicate Before(a: Row, b: Row) {
    a.balance > b.balance || (a.balance == b.balance && Less(a.coin, b.coin))
  }

  predicate Ordered(rows: seq<Row>) {
    forall i, j :: 0 <= i < j < |rows| ==> Before(rows[i], rows[j])
  }

  /** Where a row of balance `x.balance` goes: behind every row of at least its balance. */
  function InsertPos(x: Row, s: seq<Row>): (p: nat)
    ensures p <= |s|
    ensures forall i :: 0 <= i < p ==> s[i].balance >= x.balance
    ensures p < |s| ==> s[p].balance < x.balance
    decreases |s|
  {
    if s == [] || s[0].balance < x.balance then 0 else 1 + InsertPos(x, s[1..])
  }

  /** An ordered sequence, a row, and an ordered sequence, each before the next, form an ordered sequence. */
  lemma OrderedSplice(a: seq<Row>, x: Row, b: seq<Row>)
    requires Ordered(a) && Ordered(b)
    requires forall i :: 0 <= i < |a| ==> Before(a[i], x)
    requires forall j :: 0 <= j < |b| ==> Before(x, b[j])
    requires forall i, j :: 0 <= i < |a| && 0 <= j < |b| ==> Before(a[i], b[j])
    ensures Ordered(a + [x] + b)
  {
    var r := a + [x] + b;
    forall i, j | 0 <= i < j < |r| ensures Before(r[i], r[j]) {
      if j < |a| {
        assert r[i] == a[i] && r[j] == a[j];
      } else if j == |a| {
        assert r[i] == a[i];
      } else if i < |a| {
        assert r[i] == a[i] && r[j] == b[j - |a| - 1];
      } else if i == |a| {
        assert r[j] == b[j - |a| - 1];
      } else {
        assert r[i] == b[i - |a| - 1] && r[j] == b[j - |a| - 1];
      }
    }
  }

  /** Putting `x` at its place keeps the sequence ordered. */
  lemma InsertKeepsOrder(x: Row, s: seq<Row>, p: nat)
    requires Ordered(s) && CoinsBelow(s, x.coin)
    requires p <= |s|
    requires forall i :: 0 <= i < p ==> s[i].balance >= x.balance
    requires p < |s| ==> s[p].balance < x.balance
    ensures Ordered(s[..p] + [x] + s[p..])
  {
    var a, b := s[..p], s[p..];
    assert Ordered(a) by {
      forall i, j | 0 <= i < j < |a| ensures Before(a[i], a[j]) {
        assert a[i] == s[i] && a[j] == s[j];
      }
    }
    assert Ordered(b) by {
      forall i, j | 0 <= i < j < |b| ensures Before(b[i], b[j]) {
        assert b[i] == s[p + i] && b[j] == s[p + j];
      }
    }
    forall i | 0 <= i < |a| ensures Before(a[i], x) {
      assert a[i] == s[i];
    }
    forall j | 0 <= j < |b| ensures Before(x, b[j]) {
      assert b[j] == s[p + j];
      if j > 0 {
        assert Before(s[p], s[p + j]);
      }
    }
    forall i, j | 0 <= i < |a| && 0 <= j < |b| ensures Before(a[i], b[j]) {
      assert a[i] == s[i] && b[j] == s[p + j];
    }
    OrderedSplice(a, x, b);
  }

  lemma SpliceMultiset<T>(s: seq<T>, p: nat, x: T)
    requires p <= |s|
    ensures multiset(s[..p] + [x] + s[p..]) == multiset(s) + multiset{x}
  {
    assert s == s[..p] + s[p..];
  }

  /**
   One step of the stable sort by balance: `x`, whose coin comes after every
   coin already placed, goes behind all rows of at least its balance.
   */
  function InsertByBalance(x: Row, s: seq<Row>): (r: seq<Row>)
    requires Ordered(s) && CoinsBelow(s, x.coin)
    ensures Ordered(r)
    ensures multiset(r) == multiset(s) + multiset{x}
  {
    var p := InsertPos(x, s);
    InsertKeepsOrder(x, s, p);
    SpliceMultiset(s, p, x);
    s[..p] + [x] + s[p..]
  }

  /** Rows in strictly increasing coin order, as the key-ordered loop produces them. */
  predicate CoinsIncreasing(rows: seq<Row>) {
    forall a, b :: 0 <= a < b < |rows| ==> Less(rows[a].coin, rows[b].coin)
  }

  /** The rows of `rows` all have coins below `c`. */
  predicate CoinsBelow(rows: seq<Row>, c: string) {
    forall i :: 0 <= i < |rows| ==> Less(rows[i].coin, c)
  }

  /** Dropping the last row of increasing rows leaves increasing rows, all below the dropped one. */
  lemma DropLast(rows: seq<Row>)
    requires CoinsIncreasing(rows) && rows != []
    ensures CoinsIncreasing(rows[..|rows| - 1])
    ensures CoinsBelow(rows[..|rows| - 1], rows[|rows| - 1].coin)
  {
    var init := rows[..|rows| - 1];
    forall a, b | 0 <= a < b < |init| ensures Less(init[a].coin, init[b].coin) {
      assert init[a] == rows[a] && init[b] == rows[b];
    }
    forall a | 0 <= a < |init| ensures Less(init[a].coin, rows[|rows| - 1].coin) {
      assert init[a] == rows[a];
    }
  }

  lemma PermutationKeepsBelow(a: seq<Row>, b: seq<Row>, c: string)
    requires multiset(a) == multiset(b) && CoinsBelow(a, c)
    ensures CoinsBelow(b, c)
  {
    forall i | 0 <= i < |b| ensures Less(b[i].coin, c) {
      assert b[i] in multiset(a);
      var k :| 0 <= k < |a| && a[k] == b[i];
    }
  }

  /** `rows.sort((a, b) => b.balance - a.balance)` on rows in increasing coin order. */
  function SortByBalance(rows: seq<Row>): (r: seq<Row>)
    requires CoinsIncreasing(rows)
    ensures Ordered(r)
    ensures multiset(r) == multiset(rows)
    decreases |rows|
  {
    if rows == [] then []
    else
      var init, last := rows[..|rows| - 1], rows[|rows| - 1];
      DropLast(rows);
      var sorted := SortByBalance(init);
      PermutationKeepsBelow(init, sorted, last.coin);
      assert rows == init + [last];
      InsertByBalance(last, sorted)
  }

  /** The sum of the totals of the coins in `s`, in no particular order. */
  ghost function SumTotals(coins: map<string, CoinStat>, s: set<string>): real
    requires s <= coins.Keys
    decreases s
  {
    if s == {} then 0.0 else var k :| k in s; coins[k].total + SumTotals(coins, s - {k})
  }

  /** Any element can be taken out of the sum first. */
  lemma {:induction false} SumTotalsRemove(coins: map<string, CoinStat>, s: set<string>, k: string)
    requires s <= coins.Keys && k in s
    ensures SumTotals(coins, s) == coins[k].total + SumTotals(coins, s - {k})
    decreases s
  {
    var j :| j in s && SumTotals(coins, s) == coins[j].total + SumTotals(coins, s - {j});
    if j != k {
      SumTotalsRemove(coins, s - {j}, k);
      SumTotalsRemove(coins, s - {k}, j);
      assert s - {j} - {k} == s - {k} - {j};
    }
  }

  /** Coins worth nothing do not change a sum. */
  lemma {:induction false} SumTotalsIgnoresWorthless(coins: map<string, CoinStat>, s: set<string>, z: set<string>)
    requires s + z <= coins.Keys && s !! z
    requires forall c :: c in z ==> coins[c].total == 0.0
    ensures SumTotals(coins, s + z) == SumTotals(coins, s)
    decreases z
  {
    if z != {} {
      var c :| c in z;
      assert c in s + z && c !in s && coins[c].total == 0.0;
      SumTotalsRemove(coins, s + z, c);
      assert s + z - {c} == s + (z - {c});
      assert SumTotals(coins, s + z) == SumTotals(coins, s + (z - {c}));
      SumTotalsIgnoresWorthless(coins, s, z - {c});
    } else {
      assert s + z == s;
    }
  }

  function ShownCoins(coins: map<string, CoinStat>): set<string> {
    set c | c in coins && Shown(coins, c)
  }

  /** The coins of `ks` that the summary shows. */
  function ShownAmong(coins: map<string, CoinStat>, ks: seq<string>): set<string> {
    set c | c in ks && Shown(coins, c)
  }

  /** The coins the rows are about. */
  function RowCoins(rows: seq<Row>): set<string> {
    set r | r in rows :: r.coin
  }

  /** Every row is about a coin the summary shows and holds that coin's rounded figures. */
  predicate Faithful(coins: map<string, CoinStat>, rows: seq<Row>) {
    forall a :: 0 <= a < |rows| ==> Shown(coins, rows[a].coin) && rows[a] == RowOf(rows[a].coin, coins[rows[a].coin])
  }

  /** Appending the row of a shown coin above all others keeps the rows faithful and increasing. */
  lemma AppendRow(coins: map<string, CoinStat>, rows: seq<Row>, x: Row)
    requires Faithful(coins, rows) && CoinsIncreasing(rows)
    requires Shown(coins, x.coin) && x == RowOf(x.coin, coins[x.coin])
    requires CoinsBelow(rows, x.coin)
    ensures Faithful(coins, rows + [x]) && CoinsIncreasing(rows + [x])
    ensures RowCoins(rows + [x]) == RowCoins(rows) + {x.coin}
  {
    var r := rows + [x];
    forall a | 0 <= a < |r| ensures Shown(coins, r[a].coin) && r[a] == RowOf(r[a].coin, coins[r[a].coin]) {
      if a < |rows| {
        assert r[a] == rows[a];
      }
    }
    forall a, b | 0 <= a < b < |r| ensures Less(r[a].coin, r[b].coin) {
      assert r[a] == rows[a];
      if b < |rows| {
        assert r[b] == rows[b];
      }
    }
    assert forall y :: y in r <==> y in rows || y == x;
  }

  /** Reordering rows keeps them faithful and about the same coins. */
  lemma PermutationKeepsFaithful(coins: map<string, CoinStat>, a: seq<Row>, b: seq<Row>)
    requires multiset(a) == multiset(b) && Faithful(coins, a)
    ensures Faithful(coins, b) && RowCoins(a) == RowCoins(b)
  {
    forall i | 0 <= i < |b| ensures Shown(coins, b[i].coin) && b[i] == RowOf(b[i].coin, coins[b[i].coin]) {
      assert b[i] in multiset(a);
      var k :| 0 <= k < |a| && a[k] == b[i];
    }
    forall y ensures y in a <==> y in b {
      assert y in a <==> y in multiset(a);
      assert y in b <==> y in multiset(b);
    }
  }

  lemma ShownAmongAppend(coins: map<string, CoinStat>, ks: seq<string>, k: string)
    ensures ShownAmong(coins, ks + [k]) == ShownAmong(coins, ks) + (if Shown(coins, k) then {k} else {})
  {
    assert forall c :: c in ks + [k] <==> c in ks || c == k;
  }

  /** In an increasing sequence every key before position `i` is below the key at `i`. */
  lemma EarlierKeyIsLess(ks: seq<string>, i: nat, x: string)
    requires Increasing(ks) && i < |ks| && x in ks[..i]
    ensures Less(x, ks[i])
  {
    var j :| 0 <= j < |ks[..i]| && ks[..i][j] == x;
    assert ks[j] == x;
  }

  /** A coin not yet summed adds its total to the sum. */
  lemma SumTotalsAdd(coins: map<string, CoinStat>, s: set<string>, k: string)
    requires s <= coins.Keys && k in coins && k !in s
    ensures SumTotals(coins, s + {k}) == coins[k].total + SumTotals(coins, s)
  {
    SumTotalsRemove(coins, s + {k}, k);
    assert s + {k} - {k} == s;
  }

  /**
   The `forEach` over the sorted coin keys: a row for every coin shown, in key
   order, and the running total of their dollar values.
   */
  method CollectRows(coins: map<string, CoinStat>, ks: seq<string>) returns (rows: seq<Row>, total: real)
    requires Increasing(ks)
    ensures Faithful(coins, rows) && CoinsIncreasing(rows)
    ensures RowCoins(rows) == ShownAmong(coins, ks)
    ensures total == SumTotals(coins, ShownAmong(coins, ks))
  {
    rows := [];
    total := 0.0;
    var i := 0;
    while i < |ks|
      invariant 0 <= i <= |ks|
      invariant Faithful(coins, rows) && CoinsIncreasing(rows)
      invariant RowCoins(rows) == ShownAmong(coins, ks[..i])
      invariant total == SumTotals(coins, ShownAmong(coins, ks[..i]))
    {
      var from := ks[i];
      var before := ks[..i];
      assert ks[..i + 1] == before + [from];
      ShownAmongAppend(coins, before, from);
      if Shown(coins, from) {
        assert from !in before by {
          if from in before {
            EarlierKeyIsLess(ks, i, from);
            LessIrreflexive(from);
          }
        }
        forall a | 0 <= a < |rows| ensures Less(rows[a].coin, from) {
          assert rows[a].coin in RowCoins(rows);
          EarlierKeyIsLess(ks, i, rows[a].coin);
        }
        var row := RowOf(from, coins[from]);
        SumTotalsAdd(coins, ShownAmong(coins, before), from);
        AppendRow(coins, rows, row);
        total := total + coins[from].total;
        rows := rows + [row];
      }
      i := i + 1;
    }
    assert ks[..i] == ks;
  }

  /**
   The summary part of `saveStats`: exactly the shown coins, one faithful row
   each, ordered by balance, and the total balance of all valued coins.
   */
  method Summarize(coins: map<string, CoinStat>) returns (summary: seq<Row>, totalBalance: real)
    ensures Faithful(coins, summary)
    ensures RowCoins(summary) == ShownCoins(coins)
    ensures Ordered(summary)
    ensures totalBalance == SumTotals(coins, ShownCoins(coins))
    ensures totalBalance == SumTotals(coins, coins.Keys)
  {
    var ks := SortedKeys(coins.Keys);
    var rows;
    rows, totalBalance := CollectRows(coins, ks);
    assert forall c :: c in ks <==> c in JsSet.Elems(ks);
    assert ShownAmong(coins, ks) == ShownCoins(coins);
    summary := SortByBalance(rows);
    PermutationKeepsFaithful(coins, rows, summary);
    var worthless := coins.Keys - ShownCoins(coins);
    assert ShownCoins(coins) + worthless == coins.Keys;
    SumTotalsIgnoresWorthless(coins, ShownCoins(coins), worthless);
  }
}

=== FILE: ticker_subscriptions.dfy ===
/**
 The pairs the command-line tool subscribes to: for every coin of every
 portfolio, the pairs its coin mapping lists, or its BTC pair when it has no
 mapping; collected in a set, so each pair once, in order of first mention.
 */
module TickerSubscriptions {
  import opened JsCore
  import opened JsSet
  import opened Valuation

  /** The `to` lists of the coin mappings, by source symbol. */
  type CoinMappings = map<string, seq<string>>

  /** The pairs one coin asks for. */
  function PairsFor(m: CoinMappings, from: string): (r: seq<string>)
    ensures from in m ==> |r| == |m[from]| && forall i :: 0 <= i < |r| ==> r[i] == from + "-" + m[from][i]
    ensures from !in m ==> r == [from + "-BTC"]
  {
    if from in m then seq(|m[from]|, i requires 0 <= i < |m[from]| => from + "-" + m[from][i])
    else [from + "-BTC"]
  }

  /** The pairs of one portfolio, coin by coin, in enumeration order. */
  function PortfolioPairs(m: CoinMappings, p: seq<Holding>): (r: seq<string>)
    ensures forall k :: k in r <==> exists j :: 0 <= j < |p| && k in PairsFor(m, p[j].coin)
    decreases |p|
  {
    if p == [] then []
    else
      var rest := PortfolioPairs(m, p[1..]);
      assert forall j :: 0 < j < |p| ==> p[j] == p[1..][j - 1];
      PairsFor(m, p[0].coin) + rest
  }

  /** Add the pairs of the portfolios `ps` to the set `acc`, portfolio by portfolio. */
  function Collect(m: CoinMappings, acc: seq<string>, ps: seq<seq<Holding>>): (r: seq<string>)
    decreases |ps|
  {
    if ps == [] then acc else Collect(m, AddAll(acc, PortfolioPairs(m, ps[0])), ps[1..])
  }

  /** A pair is wanted when some coin of some portfolio asks for it. */
  predicate Wanted(m: CoinMappings, ps: seq<seq<Holding>>, k: string) {
    exists i, j :: 0 <= i < |ps| && 0 <= j < |ps[i]| && k in PairsFor(m, ps[i][j].coin)
  }

  /** A pair is wanted by a list of portfolios when the first wants it or the rest do. */
  lemma WantedCons(m: CoinMappings, ps: seq<seq<Holding>>, k: string)
    requires ps != []
    ensures Wanted(m, ps, k) <==> k in PortfolioPairs(m, ps[0]) || Wanted(m, ps[1..], k)
  {
    if Wanted(m, ps[1..], k) {
      var i, j :| 0 <= i < |ps[1..]| && 0 <= j < |ps[1..][i]| && k in PairsFor(m, ps[1..][i][j].coin);
      assert ps[1..][i] == ps[i + 1];
    }
    if Wanted(m, ps, k) {
      var i, j :| 0 <= i < |ps| && 0 <= j < |ps[i]| && k in PairsFor(m, ps[i][j].coin);
      if i > 0 {
        assert ps[i] == ps[1..][i - 1];
      }
    }
  }

  /** What `Collect` adds to its set: exactly the wanted pairs, without repeats, after what was there. */
  lemma {:induction false} CollectAddsWanted(m: CoinMappings, acc: seq<string>, ps: seq<seq<Holding>>)
    requires NoDup(acc)
    ensures NoDup(Collect(m, acc, ps))
    ensures forall k :: k in Collect(m, acc, ps) <==> k in acc || Wanted(m, ps, k)
    ensures |acc| <= |Collect(m, acc, ps)| && Collect(m, acc, ps)[..|acc|] == acc
    decreases |ps|
  {
    if ps != [] {
      var pairs := PortfolioPairs(m, ps[0]);
      var next := AddAll(acc, pairs);
      CollectAddsWanted(m, next, ps[1..]);
      var r := Collect(m, acc, ps);
      assert r == Collect(m, next, ps[1..]);
      PrefixOfPrefix(acc, next, r);
      forall k ensures k in r <==> k in acc || Wanted(m, ps, k) {
        assert k in next <==> k in Elems(next);
        assert k in pairs <==> k in Elems(pairs);
        assert k in acc <==> k in Elems(acc);
        WantedCons(m, ps, k);
      }
    }
  }

  /** `getTickerSubscriptions`: every wanted pair, once each. */
  function GetTickerSubscriptions(m: CoinMappings, ps: seq<seq<Holding>>): (r: seq<string>)
    ensures NoDup(r)
    ensures forall k :: k in r <==> Wanted(m, ps, k)
  {
    CollectAddsWanted(m, [], ps);
    Collect(m, [], ps)
  }

  /** Adding portfolios never reorders or drops the pairs of the earlier ones. */
  lemma {:induction false} LaterPortfoliosOnlyAppend(m: CoinMappings, acc: seq<string>, ps: seq<seq<Holding>>, qs: seq<seq<Holding>>)
    ensures Collect(m, acc, ps + qs) == Collect(m, Collect(m, acc, ps), qs)
    decreases |ps|
  {
    if ps == [] {
      assert ps + qs == qs;
    } else {
      assert (ps + qs)[0] == ps[0] && (ps + qs)[1..] == ps[1..] + qs;
      LaterPortfoliosOnlyAppend(m, AddAll(acc, PortfolioPairs(m, ps[0])), ps[1..], qs);
    }
  }

  /** The subscriptions of `ps` open those of `ps + qs`. */
  lemma SubscriptionsGrowByAppending(m: CoinMappings, ps: seq<seq<Holding>>, qs: seq<seq<Holding>>)
    ensures var a, b := GetTickerSubscriptions(m, ps), GetTickerSubscriptions(m, ps + qs);
            |a| <= |b| && b[..|a|] == a
  {
    LaterPortfoliosOnlyAppend(m, [], ps, qs);
    CollectAddsWanted(m, [], ps);
    CollectAddsWanted(m, Collect(m, [], ps), qs);
  }

  /** A coin without a mapping is followed through its BTC pair. */
  lemma UnmappedCoinUsesBtcPair(m: CoinMappings, ps: seq<seq<Holding>>, i: nat, j: nat)
    requires i < |ps| && j < |ps[i]| && ps[i][j].coin !in m
    ensures ps[i][j].coin + "-BTC" in GetTickerSubscriptions(m, ps)
  {
    assert ps[i][j].coin + "-BTC" in PairsFor(m, ps[i][j].coin);
  }
}

=== FILE: valuation.dfy ===
/**
 Portfolio valuation: each coin's quantity is the sum of its wallets, its
 dollar price is resolved from the price table (a direct USD quote first, then
 the dollar price bridged onto its BTC quote, or, when there is no BTC quote,
 onto its ETH quote), coins without a usable price are set aside as missing,
 and each valued coin is flagged when its ticker is older than the limit.
 */
module Valuation {
  import opened JsCore
  import opened Frames
  import opened PriceTable
  import Display

  datatype Wallet = Wallet(total: Option<real>)

  /** One coin of a portfolio file with its wallets. */
  datatype Holding = Holding(coin: string, wallets: seq<Wallet>)

  /** The coins of a portfolio in enumeration order; they are the keys of a JSON object, so distinct. */
  predicate DistinctCoins(p: seq<Holding>) {
    forall i, j :: 0 <= i < j < |p| ==> p[i].coin != p[j].coin
  }

  /** A valued coin. Its `to` is always "USD". */
  datatype CoinStat = CoinStat(from: string, to: string, price: real, total: real, totalOriginal: real, outdated: bool)

  /** The valued coins by symbol, and the coins left out for want of a price, in portfolio order. */
  datatype Stats = Stats(coins: map<string, CoinStat>, missing: seq<string>)

  /** The amount a wallet contributes: its `total` when truthy, nothing otherwise. */
  function Contribution(w: Wallet): real {
    if TruthyNumber(w.total) then w.total.value else 0.0
  }

  /** The quantity of a coin: the sum of the truthy wallet totals. */
  function Quantity(ws: seq<Wallet>): real
    decreases |ws|
  {
    if ws == [] then 0.0 else Contribution(ws[0]) + Quantity(ws[1..])
  }

  /** Splitting the wallets anywhere splits the quantity: the sum does not depend on grouping. */
  lemma {:induction false} QuantityOfConcat(a: seq<Wallet>, b: seq<Wallet>)
    ensures Quantity(a + b) == Quantity(a) + Quantity(b)
    decreases |a|
  {
    if a == [] {
      assert a + b == b;
    } else {
      assert (a + b)[0] == a[0] && (a + b)[1..] == a[1..] + b;
      QuantityOfConcat(a[1..], b);
    }
  }

  /** Wallets whose totals are all falsy add up to nothing. */
  lemma {:induction false} FalsyWalletsAddNothing(ws: seq<Wallet>)
    requires forall i :: 0 <= i < |ws| ==> !TruthyNumber(ws[i].total)
    ensures Quantity(ws) == 0.0
    decreases |ws|
  {
    if ws != [] {
      FalsyWalletsAddNothing(ws[1..]);
    }
  }

  /** A resolved dollar price and the ticker it came from. */
  datatype Quote = Quote(price: real, ticker: Ticker)

  /** `tickers[coin-BTC] || tickers[coin-ETH]`. */
  function Fallback(t: Table, coin: string): Option<Ticker> {
    if coin + "-BTC" in t then Some(t[coin + "-BTC"])
    else if coin + "-ETH" in t then Some(t[coin + "-ETH"])
    else None
  }

  /** The dollar price of a coin, if the table yields one. */
  function Resolve(t: Table, coin: string): (q: Option<Quote>)
    ensures coin + "-USD" in t ==> q == Some(Quote(t[coin + "-USD"].price, t[coin + "-USD"]))
    ensures coin + "-USD" !in t && coin + "-BTC" in t ==>
              if TruthyNumber(t[coin + "-BTC"].priceUSD)
              then q == Some(Quote(t[coin + "-BTC"].priceUSD.value, t[coin + "-BTC"]))
              else q == None
    ensures coin + "-USD" !in t && coin + "-BTC" !in t && coin + "-ETH" in t ==>
              if TruthyNumber(t[coin + "-ETH"].priceUSD)
              then q == Some(Quote(t[coin + "-ETH"].priceUSD.value, t[coin + "-ETH"]))
              else q == None
    ensures coin + "-USD" !in t && coin + "-BTC" !in t && coin + "-ETH" !in t ==> q == None
  {
    if coin + "-USD" in t then
      var ticker := t[coin + "-USD"];
      Some(Quote(ticker.price, ticker))
    else
      match Fallback(t, coin)
      case Some(ticker) =>
        if TruthyNumber(ticker.priceUSD) then Some(Quote(ticker.priceUSD.value, ticker)) else None
      case None => None
  }

  /** A BTC quote without a dollar price hides the coin's ETH quote, whatever that holds. */
  lemma BtcQuoteShadowsEthQuote(t: Table, coin: string, eth: Ticker)
    requires coin + "-USD" !in t && coin + "-BTC" in t && !TruthyNumber(t[coin + "-BTC"].priceUSD)
    ensures Resolve(t, coin) == None
    ensures Resolve(t[coin + "-ETH" := eth], coin) == None
  {
    var u := t[coin + "-ETH" := eth];
    assert (coin + "-ETH")[|coin| + 1] == 'E';
    assert (coin + "-USD")[|coin| + 1] == 'U' && (coin + "-BTC")[|coin| + 1] == 'B';
    assert coin + "-USD" !in u && coin + "-BTC" in u && u[coin + "-BTC"] == t[coin + "-BTC"];
  }

  /** In a table fed by the dispatcher, a resolved dollar price is never zero. */
  lemma ResolvedPriceIsNonZero(t: Table, coin: string)
    requires Valid(t) && Resolve(t, coin).Some?
    ensures Resolve(t, coin).value.price != 0.0
  {
  }

  /** The valuation of one coin, or `None` when it is missing. */
  function Value(t: Table, h: Holding, now: real): (s: Option<CoinStat>)
    ensures s.Some? <==> Resolve(t, h.coin).Some?
    ensures s.Some? ==>
              var q := Resolve(t, h.coin).value;
              && s.value.from == h.coin && s.value.to == "USD"
              && s.value.totalOriginal == Quantity(h.wallets)
              && s.value.price == q.price
              && s.value.total == Times(Quantity(h.wallets), q.price)
              && (s.value.outdated <==> now - q.ticker.timestamp > Display.MaxTickerAge)
  {
    var quantity := Quantity(h.wallets);
    match Resolve(t, h.coin)
    case None => None
    case Some(q) =>
      Some(CoinStat(h.coin, "USD", q.price, Times(quantity, q.price), quantity,
                    now - q.ticker.timestamp > Display.MaxTickerAge))
  }

  /** `getPortfolioStats`: value every coin of the portfolio, in order. */
  function PortfolioStats(t: Table, p: seq<Holding>, now: real): Stats
    requires DistinctCoins(p)
    decreases |p|
  {
    if p == [] then Stats(map[], [])
    else
      var rest := PortfolioStats(t, p[1..], now);
      match Value(t, p[0], now)
      case None => Stats(rest.coins, [p[0].coin] + rest.missing)
      case Some(s) => Stats(rest.coins[p[0].coin := s], rest.missing)
  }

  function Coins(p: seq<Holding>): set<string> {
    set h | h in p :: h.coin
  }

  function Priced(t: Table, p: seq<Holding>): set<string> {
    set h | h in p && Resolve(t, h.coin).Some? :: h.coin
  }

  function Unpriced(t: Table, p: seq<Holding>): set<string> {
    set h | h in p && Resolve(t, h.coin).None? :: h.coin
  }

  lemma CoinsOfTail(t: Table, p: seq<Holding>)
    requires p != [] && DistinctCoins(p)
    ensures Coins(p) == {p[0].coin} + Coins(p[1..]) && p[0].coin !in Coins(p[1..])
    ensures Priced(t, p) == (if Resolve(t, p[0].coin).Some? then {p[0].coin} else {}) + Priced(t, p[1..])
    ensures Unpriced(t, p) == (if Resolve(t, p[0].coin).None? then {p[0].coin} else {}) + Unpriced(t, p[1..])
  {
    assert forall h :: h in p <==> h == p[0] || h in p[1..];
    forall h | h in p[1..] ensures h.coin != p[0].coin {
      var i :| 0 <= i < |p[1..]| && p[1..][i] == h;
      assert p[i + 1] == h;
    }
  }

  /** The valued coins are exactly the coins with a resolvable price, each valued by `Value`. */
  lemma {:induction false} ValuedCoinsArePriced(t: Table, p: seq<Holding>, now: real)
    requires DistinctCoins(p)
    ensures PortfolioStats(t, p, now).coins.Keys == Priced(t, p)
    ensures forall h :: h in p && Resolve(t, h.coin).Some? ==>
              PortfolioStats(t, p, now).coins[h.coin] == Value(t, h, now).value
    decreases |p|
  {
    if p != [] {
      var rest := PortfolioStats(t, p[1..], now);
      ValuedCoinsArePriced(t, p[1..], now);
      CoinsOfTail(t, p);
      forall h | h in p[1..] ensures h.coin != p[0].coin {
        assert h.coin in Coins(p[1..]);
      }
      assert forall h :: h in p <==> h == p[0] || h in p[1..];
    }
  }

  /** The missing list names exactly the coins without a resolvable price. */
  lemma {:induction false} MissingCoinsAreUnpriced(t: Table, p: seq<Holding>, now: real)
    requires DistinctCoins(p)
    ensures (set c | c in PortfolioStats(t, p, now).missing) == Unpriced(t, p)
    decreases |p|
  {
    if p != [] {
      var r := PortfolioStats(t, p, now);
      var rest := PortfolioStats(t, p[1..], now);
      MissingCoinsAreUnpriced(t, p[1..], now);
      CoinsOfTail(t, p);
      if Resolve(t, p[0].coin).None? {
        assert r.missing == [p[0].coin] + rest.missing;
        assert (set c | c in r.missing) == {p[0].coin} + (set c | c in rest.missing);
      } else {
        assert r.missing == rest.missing;
      }
    }
  }

  /** Every coin of the portfolio lands exactly once, either valued or missing. */
  lemma {:induction false} EveryCoinAccountedOnce(t: Table, p: seq<Holding>, now: real)
    requires DistinctCoins(p)
    ensures |PortfolioStats(t, p, now).missing| + |PortfolioStats(t, p, now).coins| == |p|
    decreases |p|
  {
    if p != [] {
      var rest := PortfolioStats(t, p[1..], now);
      EveryCoinAccountedOnce(t, p[1..], now);
      ValuedCoinsArePriced(t, p[1..], now);
      CoinsOfTail(t, p);
      assert Priced(t, p[1..]) <= Coins(p[1..]);
      assert p[0].coin !in rest.coins;
    }
  }
}
